=== FILE: README.md ===
# Tribal Wars scripts: Victim Finder and Bounce Snipe, modelled in Dafny

This project models the decision logic of two browser scripts for the game
Tribal Wars.

**Victim Finder** (`MyScripts/VictimFinder/victimFinder.js`) reads the
world's public kill statistics (offense `kill_att.txt`, defense
`kill_def.txt`) and the village registry (`village.txt`). It remembers the
previous kill counts between scans and, on each scan:

- computes how much every player's counter grew since the stored snapshot
  (`calculateDeltas`);
- keeps only players owning some village inside a square around the scanning
  player's centre (`isInRange`, `getPlayerCenter`). One village inside the
  square is enough;
- pairs every offense gain with every defense gain of a different player whose
  relative difference, measured against the average `(a + b) / 2` of the two,
  is at most 25 % (`findMatches`). This is an all-pairs loop, and every
  accepted pair is kept;
- ranks the pairs by that difference, with High / Medium / Low confidence.

The demo mode runs the same join on built-in data (`generateDemoData`).

**Bounce Snipe** (`MyScripts/BounceSnipe/bounceSnipe.js`) plans "bounce"
snipes: troops sent to a nearby barbarian village so that they come home
exactly between two incoming attacks. It has these parts:

- a checkbox handler that keeps at most two selected incoming attacks;
- the barbarian villages within a radius, nearest first (`fetchBarbs`);
- the units that travel with a sniping unit (`getSlowerOrEqualUnits`);
- the plan itself (`calculateSnipe`). Its return target is the later arrival
  cut to its whole second. Each send launches twice the travel time before
  that target, only sends still in the future are kept, and each send gets a
  rally-point link.
- the `h:mm:ss` countdown text (`formatTimer`).

## Layout

| file | module | contents |
|---|---|---|
| `js.dfy` | `Js` | `Option`, `parseInt`'s `|| d` fallback, `split` / `join` / `trim` and their round trips |
| `decimal.dfy` | `Decimal` | decimal printing of whole numbers, two-digit padding, and the parser that reads them back |
| `sorting.dfy` | `Sorting` | the stable ascending sort by a numeric key that `Array.prototype.sort` performs with a key-difference comparator |
| `world.dfy` | `World` | map coordinates |
| `victim_feeds.dfy` | `VictimFeeds` | `parseKillData`, `parseVillageData` |
| `victim_range.dfy` | `VictimRange` | `isInRange`, `getPlayerCenter` |
| `victim_match.dfy` | `VictimMatch` | `calculateDeltas`, the range filter of `runScan`, `findMatches` |
| `victim_scan.dfy` | `VictimScan` | `runScan` with an explicit snapshot store, `generateDemoData` |
| `snipe_selection.dfy` | `SnipeSelection` | the checkbox `change` handler |
| `snipe_barbs.dfy` | `SnipeBarbs` | the barb filter of `fetchBarbs` |
| `snipe_units.dfy` | `SnipeUnits` | `UNITS`, `getSlowerOrEqualUnits` |
| `snipe_plan.dfy` | `SnipePlan` | `calculateSnipe` and its send link |
| `snipe_timer.dfy` | `SnipeTimer` | `formatTimer` |

### How JavaScript is rendered

- Objects used as dictionaries become `map`s, and arrays become `seq`s.
- `parseInt` is a parameter of type `string -> Option<int>`. `None` stands
  for NaN.
- `parseInt(x) || d` is `OrElse`. NaN and 0 both give the fallback.
- The script's floating-point ratios are exact `real`s. Lemmas restate the
  acceptance and tier tests as integer inequalities.
- `Date.now()`, the unit counts scraped from the page, the travel time of a
  unit to a barb, and the stored snapshots are all inputs.

## Model

| member | source | states |
|---|---|---|
| Js.JoinSplit | MyScripts/VictimFinder/victimFinder.js:140-142 | splitting a text on a separator loses nothing: joining the fields with the same separator gives the text back |
| Js.SplitJoin | MyScripts/BounceSnipe/bounceSnipe.js:384-385 | fields without the separator, joined and split again, come back unchanged and in order |
| Js.TrimKeepsMiddle | MyScripts/VictimFinder/victimFinder.js:140 | `trim()` keeps one contiguous middle part of the text, removes only white space before and after it, and leaves no white space at either end |
| Decimal.NatToString | MyScripts/BounceSnipe/bounceSnipe.js:502 | a whole number prints as a non-empty string of digits, a single digit exactly when it is below 10, and with no leading zero whenever it has more than one digit |
| Decimal.ParseNatToString | MyScripts/BounceSnipe/bounceSnipe.js:502 | the printed hours read back as the same number |
| Decimal.ParsePad2 | MyScripts/BounceSnipe/bounceSnipe.js:502 | the zero-padded minutes and seconds read back as the same number and are exactly two digits below 100 |
| Sorting.Insert | MyScripts/VictimFinder/victimFinder.js:278 | inserting into a sorted list keeps it sorted and adds exactly that element |
| Sorting.SortBy | MyScripts/VictimFinder/victimFinder.js:278 | the sort result is ordered by the key and is a permutation of the input |
| Sorting.InsertStable | MyScripts/BounceSnipe/bounceSnipe.js:403 | an inserted element lands in front of every element with the same key |
| Sorting.SortByStable | MyScripts/BounceSnipe/bounceSnipe.js:403 | the sort is stable: for every key value, the elements with that key leave in the order they came in |
| Sorting.SortByKeepsElements | MyScripts/BounceSnipe/bounceSnipe.js:223 | sorting neither adds nor drops an element |
| Sorting.SortByDistinct | MyScripts/VictimFinder/victimFinder.js:278 | sorting a list without repeats gives a list without repeats |
| Sorting.StrictlySortedUnique | MyScripts/VictimFinder/victimFinder.js:278 | two lists with the same elements, both strictly ordered by the key, are equal: once no keys tie, the sort result is fully determined |
| VictimFeeds.KillDataKeys | MyScripts/VictimFinder/victimFinder.js:138-150 | an id is a key of the parsed kill data exactly when some line with at least three fields carries it in field 1; shorter lines contribute nothing |
| VictimFeeds.KillDataLastLineWins | MyScripts/VictimFinder/victimFinder.js:141-147 | the value stored for an id is `parseInt(field 2) || 0` of the last line naming it: a later line overwrites an earlier one |
| VictimFeeds.VillageRecord | MyScripts/VictimFinder/victimFinder.js:199-204 | a village line yields an owner only when that owner is neither empty nor `"0"` |
| VictimFeeds.VillageDataGroupsByOwner | MyScripts/VictimFinder/victimFinder.js:195-213 | an owner is a key exactly when some owned line names them; their list holds the positions of exactly those lines in input order; `""` and `"0"` are never keys |
| VictimFeeds.PushGroups | MyScripts/VictimFinder/victimFinder.js:205-208 | one push extends exactly the list of the line's owner by its position and creates that list when it is missing |
| VictimRange.AnyInBox | MyScripts/VictimFinder/victimFinder.js:218-222 | `some` is true exactly when one village lies within the square, edges included |
| VictimRange.IsInRange | MyScripts/VictimFinder/victimFinder.js:216-223 | a missing or empty village list is out of range; otherwise the player is in range exactly when some village has `|x−cx| <= r` and `|y−cy| <= r` |
| VictimRange.RoundHalfUp | MyScripts/VictimFinder/victimFinder.js:103-104 | the result is the nearest integer to `sum / n`, halves rounded up |
| VictimRange.PlayerCenter | MyScripts/VictimFinder/victimFinder.js:90-106 | no villages gives (500, 500); otherwise each coordinate is the rounded mean of the villages' coordinates |
| VictimMatch.CalculateDeltas | MyScripts/VictimFinder/victimFinder.js:226-236 | an id is kept exactly when it is in the current snapshot and grew since the previous one; its value is that growth; ids only in the previous snapshot never appear; the result is the map `DeltasOf` the scan lemmas speak of |
| VictimMatch.FilterInRange | MyScripts/VictimFinder/victimFinder.js:433-442 | a delta survives exactly when its player is in range, with its value unchanged; survivors own at least one village; the result is the map `InRangeOf` the scan lemmas speak of |
| VictimMatch.MatchAttacker | MyScripts/VictimFinder/victimFinder.js:243-274 | the inner loop emits exactly the accepted matches of one attacker, never with themselves, each defender at most once |
| VictimMatch.FindMatches | MyScripts/VictimFinder/victimFinder.js:239-280 | the result holds exactly the accepted pairs, never pairs an id with itself, lists each pair once, is sorted by ascending `percentDiff`, and has at most `|oda|·|odd|` entries |
| VictimMatch.AppendRow | MyScripts/VictimFinder/victimFinder.js:242-275 | after each attacker's row the matches found are the accepted pairs of the attackers handled so far, each pair once |
| VictimMatch.SortAccepted | MyScripts/VictimFinder/victimFinder.js:277-278 | sorting the found matches keeps exactly the same matches, each pair once and no self-pair |
| VictimMatch.AcceptsCrossMultiplied | MyScripts/VictimFinder/victimFinder.js:246-250 | for positive gains, `|a−b| / ((a+b)/2) <= tol` holds exactly when `2·|a−b| <= tol·(a+b)`, boundary included |
| VictimMatch.DefaultToleranceInIntegers | MyScripts/VictimFinder/victimFinder.js:239-250 | with the default 25 % tolerance, a pair is accepted exactly when `8·|a−b| <= a+b` |
| VictimMatch.TiersInIntegers | MyScripts/VictimFinder/victimFinder.js:251-260 | the tier is High exactly when `40·|a−b| < a+b`, Medium exactly when `a+b <= 40·|a−b| < 3·(a+b)`, Low otherwise |
| VictimMatch.AcceptedMatchFields | MyScripts/VictimFinder/victimFinder.js:250-270 | an accepted match's stored percentage is at most the tolerance ×100, its tier agrees with that percentage (below 5, 5 up to 15, from 15), and it carries the gains it was computed from |
| VictimScan.DemoPairsAccepted | MyScripts/VictimFinder/victimFinder.js:283-296 | of the twenty demo pairs, exactly the four annotated ones are within 25 % |
| VictimScan.DemoAcceptedIsExpected | MyScripts/VictimFinder/victimFinder.js:283-296 | every accepted demo match is one of the four annotated matches |
| VictimScan.DemoExpectedIsAccepted | MyScripts/VictimFinder/victimFinder.js:283-296 | every annotated demo match is accepted |
| VictimScan.DemoExpectedShape | MyScripts/VictimFinder/victimFinder.js:290-296 | `99999` is in no annotated match; the four are strictly ordered by difference, three High and one Medium |
| VictimScan.DemoMatchesAreAnnotatedPairs | MyScripts/VictimFinder/victimFinder.js:283-309 | with the default tolerance the demo data matches exactly the annotated pairs, and `99999` stays unmatched |
| VictimScan.DemoOrderIsFixed | MyScripts/VictimFinder/victimFinder.js:397-400 | whatever order the join visits the demo entries in, its sorted result is exactly the four annotated matches, closest first |
| VictimScan.RunScan | MyScripts/VictimFinder/victimFinder.js:397-452 | demo mode returns the annotated matches and stores nothing. A missing kill feed stops before anything is stored. It is a first scan exactly when no offense snapshot is stored, and a first scan has no matches. Otherwise the matches are the join of the two range-filtered delta sets. The raw current feeds, not the deltas, are stored with the scan time |
| VictimScan.LocalDeltas | MyScripts/VictimFinder/victimFinder.js:425-442 | one series' deltas followed by the range filter give exactly the in-range growth of that series |
| VictimScan.ScanMatchesAreLocalGains | MyScripts/VictimFinder/victimFinder.js:425-446 | every reported pair links two different players whose counters both grew, both with a village in range, with gains that satisfy `8·|a−b| <= a+b` |
| SnipeSelection.RemoveTime | MyScripts/BounceSnipe/bounceSnipe.js:186 | the filter keeps exactly the selected attacks with a different time |
| SnipeSelection.OnChange | MyScripts/BounceSnipe/bounceSnipe.js:168-189 | an unreadable time is refused exactly when the time is NaN. Checking a third box is refused. A refusal unchecks the box and leaves the selection unchanged. Starting from at most two, at most two stay selected |
| SnipeSelection.SelectionNeverExceedsTwo | MyScripts/BounceSnipe/bounceSnipe.js:178-184 | after any sequence of checkbox changes the selection never holds more than two attacks |
| SnipeSelection.CheckAppends | MyScripts/BounceSnipe/bounceSnipe.js:184 | checking a box with fewer than two selected appends exactly that attack at the end, keeping the earlier ones first |
| SnipeSelection.RemoveTimeConcat | MyScripts/BounceSnipe/bounceSnipe.js:186 | unchecking filters piecewise, so the kept attacks stay in their order |
| SnipeSelection.RemoveAbsentTime | MyScripts/BounceSnipe/bounceSnipe.js:186 | unchecking a time nobody selected changes nothing |
| SnipeSelection.CheckThenUncheck | MyScripts/BounceSnipe/bounceSnipe.js:178-186 | checking and then unchecking the same new time restores the selection |
| SnipeUnits.UnitsTable | MyScripts/BounceSnipe/bounceSnipe.js:26-30 | the unit table has twelve distinct keys, in the order `UnitNames` lists them |
| SnipeUnits.SpeedOfUnit | MyScripts/BounceSnipe/bounceSnipe.js:26-30 | a name has a speed exactly when it is one of the twelve units, and that speed is the table's |
| SnipeUnits.SlowerOrEqualFrom | MyScripts/BounceSnipe/bounceSnipe.js:307-313 | the loop keeps exactly the keys whose speed is within the limit, in key order |
| SnipeUnits.SlowerOrEqualIn | MyScripts/BounceSnipe/bounceSnipe.js:304-315 | for any table with distinct keys, the group of a key is exactly the keys whose speed is at most its speed, in key order; an unknown key gets no group |
| SnipeUnits.SlowerOrEqualUnits | MyScripts/BounceSnipe/bounceSnipe.js:304-315 | `getSlowerOrEqualUnits(u)` is exactly the units whose speed is at most `UNITS[u]`, in `UNITS` key order; it is empty for a name that is not a unit |
| SnipeUnits.SlowerOrEqualContainsBase | MyScripts/BounceSnipe/bounceSnipe.js:304-315 | a unit's group always contains the unit itself |
| SnipeUnits.SlowerOrEqualMonotone | MyScripts/BounceSnipe/bounceSnipe.js:304-315 | a slower unit's group contains every unit a faster unit's group does |
| SnipeUnits.SpyGoesAlone | MyScripts/BounceSnipe/bounceSnipe.js:304-315 | the scout's group is just the scout |
| SnipeUnits.SnobTakesAll | MyScripts/BounceSnipe/bounceSnipe.js:304-315 | the nobleman's group is all twelve units in key order |
| SnipeBarbs.MapBarbs | MyScripts/BounceSnipe/bounceSnipe.js:211-222 | the map path keeps exactly the villages owned by `"0"` (or with id `"0"`) whose squared distance is at most the squared radius |
| SnipeBarbs.FileBarbs | MyScripts/BounceSnipe/bounceSnipe.js:232-247 | the file path keeps exactly the lines that yield a barb |
| SnipeBarbs.FileBarbIsBarbarianInRange | MyScripts/BounceSnipe/bounceSnipe.js:234-245 | a barb read from the file comes from a line with at least five fields and player `"0"`, has the line's id and parsed coordinates, and lies within the radius, boundary included |
| SnipeBarbs.FetchBarbs | MyScripts/BounceSnipe/bounceSnipe.js:202-255 | a non-empty cached list is returned as is. Otherwise the result is a permutation of the source's barbs, all in range, nearest first, with barbs at the same distance in source order. A failed file request or a radius that is not a number yields no barbs |
| SnipeBarbs.CandidatesInRange | MyScripts/BounceSnipe/bounceSnipe.js:205-247 | whichever path supplies them, the barbs are in range, and without a numeric radius there are none |
| SnipeBarbs.SortedByDistanceIffBySquare | MyScripts/BounceSnipe/bounceSnipe.js:219-223 | a list is sorted by `Math.sqrt(dx²+dy²)` exactly when it is sorted by `dx²+dy²` |
| SnipePlan.WholeSecond | MyScripts/BounceSnipe/bounceSnipe.js:337-339 | the target is a whole second and lies in the 1000 ms up to and including the later arrival |
| SnipePlan.WholeSecondUnique | MyScripts/BounceSnipe/bounceSnipe.js:337-339 | no other whole second has that property |
| SnipePlan.OrderByTime | MyScripts/BounceSnipe/bounceSnipe.js:329 | the selection is reordered, not changed, into ascending time |
| SnipePlan.UrlParams | MyScripts/BounceSnipe/bounceSnipe.js:372-382 | without known counts there are no parameters; with them, a parameter is present exactly when it is the `u=count` of a unit of the group with a positive count, and there are no more parameters than units |
| SnipePlan.UrlParamsConcat | MyScripts/BounceSnipe/bounceSnipe.js:373-376 | the parameters of a group are those of its first part followed by those of the rest, so they follow group order |
| SnipePlan.UrlParamsOne | MyScripts/BounceSnipe/bounceSnipe.js:373-376 | a single unit contributes exactly its `u=count` when its count is known and positive, and nothing otherwise |
| SnipePlan.UrlParamsPlain | MyScripts/BounceSnipe/bounceSnipe.js:373-375 | no parameter contains `&` |
| SnipePlan.SendUrlFields | MyScripts/BounceSnipe/bounceSnipe.js:384-385 | the link splits on `&` into the place path, `target=<id>` and then the parameters in group order, so no `&` dangles when there are none |
| SnipePlan.LinkFields | MyScripts/BounceSnipe/bounceSnipe.js:384-385 | a path, a field and an optional `&`-joined tail split back into exactly those pieces |
| SnipePlan.UrlParamRoundTrip | MyScripts/BounceSnipe/bounceSnipe.js:375 | a parameter splits on `=` into the unit and its count, and the count reads back |
| SnipePlan.UnitRows | MyScripts/BounceSnipe/bounceSnipe.js:357-395 | the inner loop yields exactly the sends built for one barb, no more than there are units |
| SnipePlan.BarbRows | MyScripts/BounceSnipe/bounceSnipe.js:356-396 | the nested loops yield exactly the sends built for some barb and some unit, no more than units times barbs |
| SnipePlan.PlanRows | MyScripts/BounceSnipe/bounceSnipe.js:356-396 | the candidate sends are exactly the future launches of usable units of the table to listed barbs, at most `12·|barbs|` of them |
| SnipePlan.UnitRowsDistinct | MyScripts/BounceSnipe/bounceSnipe.js:357-395 | for distinct units, the inner loop builds no send twice, and every send is aimed at its barb |
| SnipePlan.BarbRowsDistinct | MyScripts/BounceSnipe/bounceSnipe.js:356-396 | for distinct barbs and distinct units, the nested loops build no send twice: at most one per barb and unit |
| SnipePlan.PlanRowsDistinct | MyScripts/BounceSnipe/bounceSnipe.js:356-396 | over distinct barbs, the candidate sends hold no send twice |
| SnipePlan.PlannedRowsDistinct | MyScripts/BounceSnipe/bounceSnipe.js:356-403 | over distinct barbs, a plan lists each send once |
| SnipePlan.CalculateSnipe | MyScripts/BounceSnipe/bounceSnipe.js:318-403 | nothing is planned unless exactly two attacks are selected and some barb is known. The selection is put in time order. The target is the later arrival cut to its whole second. The warning is computed exactly when the target is not after the earlier arrival. The sends are a permutation of the candidate sends, soonest first, with sends of equal launch time in loop order. There is no plan when there are none |
| SnipePlan.PlannedRowsReturnAtTarget | MyScripts/BounceSnipe/bounceSnipe.js:361-393 | every planned send leaves after `now`, uses a usable unit against a listed barb, carries its link, and its launch plus twice the travel time is the target |
| SnipePlan.EveryFutureSendIsPlanned | MyScripts/BounceSnipe/bounceSnipe.js:356-368 | every usable unit whose send to a listed barb would launch after `now` appears in the plan |
| SnipePlan.TargetInsideGap | MyScripts/BounceSnipe/bounceSnipe.js:341-350 | without a warning the target lies after the earlier arrival and no later than the later one |
| SnipeTimer.FormatTimer | MyScripts/BounceSnipe/bounceSnipe.js:497-503 | the text is `PASSED` exactly when the count is negative |
| SnipeTimer.FormatTimerParts | MyScripts/BounceSnipe/bounceSnipe.js:499-502 | a non-negative count prints as hours, padded minutes and padded seconds joined by `:` |
| SnipeTimer.FormatTimerFields | MyScripts/BounceSnipe/bounceSnipe.js:497-503 | a non-negative count prints as three `:`-separated fields `h`, `mm`, `ss` with two-digit minutes and seconds, `m, s < 60` and `h·3600 + m·60 + s = sec` |
| SnipeTimer.ReadPrinted | MyScripts/BounceSnipe/bounceSnipe.js:497-503 | reading a printed countdown back gives the count |
| SnipeTimer.ReadFormatTimer | MyScripts/BounceSnipe/bounceSnipe.js:497-503 | printing is invertible on non-negative counts, and `PASSED` never reads as a count |

## Left out

- Network and script loading are not modelled: twSDK, `fetchTWData`, `fetchWorldData`, `jQuery.ajax` and `Promise.all`. A feed is an input. A failed kill-feed fetch (`kill_att.txt`, `kill_def.txt`) is `None` and ends the scan. A failed `player.txt` or `village.txt` fetch in Victim Finder is the empty map, as the script returns `{}`: the scan still runs, finds nobody in range, reports no matches and still overwrites the stored snapshots. A failed Bounce Snipe `village.txt` request is `VillageFile(None)`.
- The snapshot store is the `Snapshots` value: `localStorage` reads, writes and `clearData` are not modelled.
- HTML building is not modelled: `buildContent`, `renderResults`, `createUI`, styles, alerts and the display cuts `slice(0, 20)` / `slice(0, 15)`. Refusals are the `Refusal` values of the selection handler.
- Timers and DOM updates are not modelled: `startTimers`, `updateGapInfo` and the `Math.random` timer ids.
- `parseTWDate` and `formatTime` are not modelled. They depend on the time zone, the locale and the wall clock. The handler receives the attack time already parsed, or `None` for NaN.
- `getUnitCounts` and the `TWMap` global scrape the page, so they are inputs: the counts as `Option<map>`, the map villages as a list.
- The travel-time formula at `MyScripts/BounceSnipe/bounceSnipe.js:363` uses floating-point `Math.sqrt`, `Math.round` and the world and unit speed divisors. The model takes `travelSeconds` per barb and unit as a given whole number.
- `parsePlayerData` and its `decodeURIComponent` call are not modelled: the player names map is an input. `formatNumber` is not modelled either.
- `parseInt` is an uninterpreted function from text to a number or NaN.
- The "Filtered by available troops" note and the `Math.round` in the countdown loop are display-only and are not modelled.
- VictimMatch.FindMatches: the order of pairs with equal `percentDiff` is left open. Player ids are integer-like strings, so `Object.entries` visits them in ascending numeric order, and the stable sort then lists tied pairs by attacker id and then defender id. The model iterates over map keys, which have no order. The contract states the set of pairs, the sort order and that each pair appears once. The demo data has no ties, so its order is fully pinned (`DemoOrderIsFixed`).
- VictimMatch.AcceptsCrossMultiplied: ratios are exact reals, not IEEE doubles. At the exact tolerance boundary the script's rounded quotient may fall on either side.
- VictimRange.RoundHalfUp: `Math.round(sum / n)` is taken on the exact quotient, not on a rounded double.
- VictimRange.PlayerCenter: the villages of `game_data` are given as their `coord` texts in some order. The mean does not depend on that order.
- SnipeBarbs.SortedByDistanceIffBySquare: barbs store the squared distance. Two different squared distances can round to the same double `Math.sqrt`; the script's stable sort then keeps file order, where the model orders them by squared distance.
- SnipeBarbs.FetchBarbs: the map coordinates of `TWMap.villages` are taken to be whole numbers, visited in the order of the list given.
- SnipePlan.CalculateSnipe: the results view drops two things `calculateSnipe` computes. `renderResults` (`MyScripts/BounceSnipe/bounceSnipe.js:464`) never reads its second argument, so neither the warning nor the "Filtered by available troops" note is displayed. Its Send button (`MyScripts/BounceSnipe/bounceSnipe.js:488`) links to the barb alone and ignores the row's `url`. The model states what is computed: the warning flag and each row's `url`.
- SnipePlan.CalculateSnipe: the script sorts `state.selected` in place, so the selection stays in time order afterwards. The model returns the ordered selection in the outcome instead of writing it back.

=== FILE: decimal.dfy ===
/**
 * Decimal text of non-negative integers, as a JavaScript template literal
 * prints a whole number (`${n}`), and the two-digit padding the countdown
 * timer uses. `ParseNat` is the inverse that the round-trip lemmas use.
 */
module Decimal {
  import opened Js

  predicate IsDigit(c: char)
  {
    '0' <= c <= '9'
  }

  function DigitChar(d: nat): (c: char)
    requires d < 10
  {
    ('0' as int + d) as char
  }

  function DigitValue(c: char): nat
    requires IsDigit(c)
  {
    c as int - '0' as int
  }

  /** The shortest decimal numeral of `n`: no sign, no leading zero. */
  function NatToString(n: nat): (s: string)
    ensures |s| >= 1
    ensures forall i :: 0 <= i < |s| ==> IsDigit(s[i])
    ensures n >= 10 ==> s[0] != '0'
    ensures |s| == 1 <==> n < 10
    ensures |s| > 1 ==> s[0] != '0'
    decreases n
  {
    if n < 10 then [DigitChar(n)] else NatToString(n / 10) + [DigitChar(n % 10)]
  }

  /** The value of a string of digits, most significant first. */
  function DigitsValue(s: string): nat
    requires forall i :: 0 <= i < |s| ==> IsDigit(s[i])
  {
    if s == [] then 0 else 10 * DigitsValue(s[..|s| - 1]) + DigitValue(s[|s| - 1])
  }

  /** Reads a non-empty string of decimal digits; anything else is rejected. */
  function ParseNat(s: string): Option<nat>
  {
    if |s| >= 1 && forall i :: 0 <= i < |s| ==> IsDigit(s[i]) then Some(DigitsValue(s)) else None
  }

  /** Printing a whole number and reading it back gives the number. */
  lemma {:induction false} ParseNatToString(n: nat)
    ensures ParseNat(NatToString(n)) == Some(n)
    decreases n
  {
    if n >= 10 {
      var s := NatToString(n);
      var front := NatToString(n / 10);
      ParseNatToString(n / 10);
      assert s == front + [DigitChar(n % 10)];
      assert s[..|s| - 1] == front;
      assert DigitValue(s[|s| - 1]) == n % 10;
      assert DigitsValue(front) == n / 10;
      assert DigitsValue(s) == 10 * (n / 10) + n % 10;
    }
  }

  /** A whole number with a `0` put in front when it has a single digit: at least two digits. */
  function Pad2(n: nat): string
  {
    if n < 10 then "0" + NatToString(n) else NatToString(n)
  }

  /** Padding keeps the value readable and gives exactly two digits below 100. */
  lemma {:induction false} ParsePad2(n: nat)
    ensures ParseNat(Pad2(n)) == Some(n)
    ensures n < 100 ==> |Pad2(n)| == 2
    ensures forall i :: 0 <= i < |Pad2(n)| ==> IsDigit(Pad2(n)[i])
  {
    ParseNatToString(n);
    if n < 10 {
      var s := Pad2(n);
      assert s == ['0', DigitChar(n)];
      assert s[..1] == "0";
      assert DigitsValue(s[..1]) == 0;
    } else if n < 100 {
      assert NatToString(n) == NatToString(n / 10) + [DigitChar(n % 10)];
    }
  }
}

=== FILE: js.dfy ===
/**
 * The pieces of JavaScript value and string semantics that both scripts lean
 * on: results of `parseInt`, the `||` fallback on numbers, object lookups
 * with a default, and `String.prototype.split` / `trim` with
 * `Array.prototype.join`.
 */
module Js {

  /** A value that may be absent: `undefined`, or NaN for a parsed number. */
  datatype Option<+T> = None | Some(value: T)

  /**
   * `n || d` for a number produced by `parseInt`: NaN and 0 are both falsy,
   * so either one yields the fallback `d`.
   */
  function OrElse(n: Option<int>, d: int): int
  {
    if n.Some? && n.value != 0 then n.value else d
  }

  /** `obj[key] || 0` on an object whose values are numbers. */
  function GetOrZero(m: map<string, int>, key: string): int
  {
    if key in m then m[key] else 0
  }

  // ---------------------------------------------------------------------
  // split / join
  // ---------------------------------------------------------------------

  /**
   * `s.split(sep)` for a one-character separator. Every occurrence of `sep`
   * ends a field, so the empty string splits into one empty field.
   */
  function Split(s: string, sep: char): (fields: seq<string>)
    ensures |fields| >= 1
    ensures forall i :: 0 <= i < |fields| ==> sep !in fields[i]
  {
    if s == [] then [""]
    else
      var rest := Split(s[1..], sep);
      if s[0] == sep then [""] + rest
      else [[s[0]] + rest[0]] + rest[1..]
  }

  /** `parts.join(sep)`; the empty array joins to the empty string. */
  function Join(parts: seq<string>, sep: char): string
  {
    if parts == [] then ""
    else if |parts| == 1 then parts[0]
    else parts[0] + [sep] + Join(parts[1..], sep)
  }

  /** Joining the fields of a split with the same separator gives back the text. */
  lemma {:induction false} JoinSplit(s: string, sep: char)
    ensures Join(Split(s, sep), sep) == s
  {
    if s != [] {
      var rest := Split(s[1..], sep);
      JoinSplit(s[1..], sep);
      if s[0] == sep {
        assert Split(s, sep) == [""] + rest;
        assert ([""] + rest)[1..] == rest;
        assert s == [sep] + s[1..];
      } else {
        var fields := Split(s, sep);
        assert fields == [[s[0]] + rest[0]] + rest[1..];
        if |rest| == 1 {
          assert s == [s[0]] + rest[0];
        } else {
          assert fields[1..] == rest[1..];
          assert Join(rest, sep) == rest[0] + [sep] + Join(rest[1..], sep);
          assert s == [s[0]] + s[1..];
        }
      }
    }
  }

  /** A text without the separator is a single field. */
  lemma {:induction false} SplitWithoutSeparator(w: string, sep: char)
    requires sep !in w
    ensures Split(w, sep) == [w]
  {
    if w != [] {
      SplitWithoutSeparator(w[1..], sep);
      assert w == [w[0]] + w[1..];
    }
  }

  /** A separator-free prefix followed by the separator is exactly the first field. */
  lemma {:induction false} SplitAfterField(w: string, sep: char, t: string)
    requires sep !in w
    ensures Split(w + [sep] + t, sep) == [w] + Split(t, sep)
  {
    var s := w + [sep] + t;
    if w == [] {
      assert s == [sep] + t;
      assert s[1..] == t;
    } else {
      assert s[0] == w[0];
      assert s[1..] == w[1..] + [sep] + t;
      SplitAfterField(w[1..], sep, t);
      assert w == [w[0]] + w[1..];
    }
  }

  /** Splitting a join of separator-free fields gives back those fields. */
  lemma {:induction false} SplitJoin(parts: seq<string>, sep: char)
    requires |parts| >= 1
    requires forall i :: 0 <= i < |parts| ==> sep !in parts[i]
    ensures Split(Join(parts, sep), sep) == parts
  {
    if |parts| == 1 {
      SplitWithoutSeparator(parts[0], sep);
    } else {
      SplitJoin(parts[1..], sep);
      SplitAfterField(parts[0], sep, Join(parts[1..], sep));
      assert parts == [parts[0]] + parts[1..];
    }
  }

  // ---------------------------------------------------------------------
  // trim
  // ---------------------------------------------------------------------

  /** The characters `String.prototype.trim` removes: white space and line terminators. */
  predicate IsWhitespace(c: char)
  {
    || c == '\t' || c == '\n' || c == '\U{000B}' || c == '\U{000C}' || c == '\r' || c == ' '
    || c == '\U{00A0}' || c == '\U{1680}' || ('\U{2000}' <= c <= '\U{200A}')
    || c == '\U{2028}' || c == '\U{2029}' || c == '\U{202F}' || c == '\U{205F}'
    || c == '\U{3000}' || c == '\U{FEFF}'
  }

  /** Drops leading elements satisfying `drop`: the result is a suffix that does not start with one. */
  function DropFirst<T>(s: seq<T>, drop: T -> bool): (r: seq<T>)
    ensures |r| <= |s| && r == s[|s| - |r|..]
    ensures forall i :: 0 <= i < |s| - |r| ==> drop(s[i])
    ensures r == [] || !drop(r[0])
  {
    if s != [] && drop(s[0]) then DropFirst(s[1..], drop) else s
  }

  /** Drops trailing elements satisfying `drop`: the result is a prefix that does not end with one. */
  function DropLast<T>(s: seq<T>, drop: T -> bool): (r: seq<T>)
    ensures |r| <= |s| && r == s[..|r|]
    ensures forall i :: |r| <= i < |s| ==> drop(s[i])
    ensures r == [] || !drop(r[|r| - 1])
  {
    if s != [] && drop(s[|s| - 1]) then DropLast(s[..|s| - 1], drop) else s
  }

  /** `s.trim()`. */
  function Trim(s: string): string
  {
    DropLast(DropFirst(s, IsWhitespace), IsWhitespace)
  }

  /** `s[i..j]` is what is left of `s` after removing `drop` elements before `i` and from `j` on. */
  ghost predicate MiddleOf<T>(s: seq<T>, i: int, j: int, drop: T -> bool)
  {
    && 0 <= i <= j <= |s|
    && (forall k :: 0 <= k < i ==> drop(s[k]))
    && (forall k :: j <= k < |s| ==> drop(s[k]))
  }

  /**
   * A suffix `t` of `s` past droppable elements, cut to a prefix `r` before
   * droppable elements, is a middle part of `s`.
   */
  lemma MiddleOfEnds<T>(s: seq<T>, t: seq<T>, r: seq<T>, drop: T -> bool)
    requires |t| <= |s| && t == s[|s| - |t|..]
    requires forall k :: 0 <= k < |s| - |t| ==> drop(s[k])
    requires t == [] || !drop(t[0])
    requires |r| <= |t| && r == t[..|r|]
    requires forall k :: |r| <= k < |t| ==> drop(t[k])
    requires r == [] || !drop(r[|r| - 1])
    ensures MiddleOf(s, |s| - |t|, |s| - |t| + |r|, drop)
    ensures r == s[|s| - |t|..|s| - |t| + |r|]
    ensures r == [] || (!drop(r[0]) && !drop(r[|r| - 1]))
  {
    var i := |s| - |t|;
    forall k | i + |r| <= k < |s|
      ensures drop(s[k])
    {
      assert s[k] == t[k - i];
    }
    if r != [] {
      assert r[0] == t[0];
    }
  }

  /** Stripping both ends keeps a contiguous middle part and leaves no droppable element at either end. */
  lemma DropBothKeepsMiddle<T>(s: seq<T>, drop: T -> bool)
    ensures exists i, j :: MiddleOf(s, i, j, drop) && DropLast(DropFirst(s, drop), drop) == s[i..j]
    ensures var r := DropLast(DropFirst(s, drop), drop);
      r == [] || (!drop(r[0]) && !drop(r[|r| - 1]))
  {
    var t := DropFirst(s, drop);
    var r := DropLast(t, drop);
    MiddleOfEnds(s, t, r, drop);
    assert MiddleOf(s, |s| - |t|, |s| - |t| + |r|, drop);
  }

  /**
   * `s.trim()` keeps a contiguous middle part of `s`, removes only white space
   * on either side of it, and leaves no white space at either end.
   */
  lemma TrimKeepsMiddle(s: string)
    ensures exists i, j :: MiddleOf(s, i, j, IsWhitespace) && Trim(s) == s[i..j]
    ensures Trim(s) == [] || (!IsWhitespace(Trim(s)[0]) && !IsWhitespace(Trim(s)[|Trim(s)| - 1]))
  {
    DropBothKeepsMiddle(s, IsWhitespace);
  }

  /** The lines of a feed: `text.trim().split('\n')`. */
  function Lines(text: string): seq<string>
  {
    Split(Trim(text), '\n')
  }
}

=== FILE: snipe_barbs.dfy ===
/**
 * `fetchBarbs` of the Bounce Snipe script: the barbarian villages within
 * the search radius of the current village, nearest first, read either
 * from the loaded map (`TWMap.villages`) or from the world's `village.txt`
 * (lines `id,name,x,y,player,...`, barbarians having player `0`).
 * Distances are kept squared; the source's `Math.sqrt` only orders them.
 */
module SnipeBarbs {
  import opened Js
  import opened World
  import Sorting

  /** A barbarian village in range, with its squared distance to the current village. */
  datatype Barb = Barb(id: string, x: int, y: int, distSq: nat)

  /** An entry of the loaded map. */
  datatype MapVillage = MapVillage(id: string, owner: string, x: int, y: int)

  /**
   * Where the villages come from: the loaded map, or the text of
   * `village.txt` (`None` when the request failed).
   */
  datatype BarbSource = LoadedMap(villages: seq<MapVillage>) | VillageFile(text: Option<string>)

  /** The squared distance to the centre. */
  function DistSq(x: int, y: int, center: Coord): (d: nat)
  {
    var dx := x - center.x;
    var dy := y - center.y;
    assert dx * dx >= 0 && dy * dy >= 0;
    dx * dx + dy * dy
  }

  /**
   * `dx * dx + dy * dy <= radiusSq` with `radiusSq = radius * radius`; a
   * radius that did not parse (NaN) compares false, so nothing is in range.
   */
  predicate WithinRadius(d: nat, radius: Option<int>)
  {
    radius.Some? && d <= radius.value * radius.value
  }

  /** The ordering key: nearest first. */
  function DistKey(b: Barb): real
  {
    b.distSq as real
  }

  // ---------------------------------------------------------------------
  // Loaded map
  // ---------------------------------------------------------------------

  /** `v.owner === "0" || v.id === "0"`: the map's test for a barbarian village. */
  predicate IsMapBarb(v: MapVillage)
  {
    v.owner == "0" || v.id == "0"
  }

  function MapBarb(v: MapVillage, center: Coord): Barb
  {
    Barb(v.id, v.x, v.y, DistSq(v.x, v.y, center))
  }

  /** A map village the fast path keeps. */
  predicate KeptFromMap(v: MapVillage, center: Coord, radius: Option<int>)
  {
    IsMapBarb(v) && WithinRadius(DistSq(v.x, v.y, center), radius)
  }

  /** The loop over `TWMap.villages`, before sorting. */
  function MapBarbs(vs: seq<MapVillage>, center: Coord, radius: Option<int>): (r: seq<Barb>)
    ensures forall b :: b in r <==> exists i :: 0 <= i < |vs| && KeptFromMap(vs[i], center, radius) && b == MapBarb(vs[i], center)
    ensures |r| <= |vs|
  {
    if vs == [] then []
    else
      var rest := MapBarbs(vs[1..], center, radius);
      assert forall i :: 1 <= i < |vs| ==> vs[i] == vs[1..][i - 1];
      if KeptFromMap(vs[0], center, radius) then [MapBarb(vs[0], center)] + rest else rest
  }

  // ---------------------------------------------------------------------
  // village.txt
  // ---------------------------------------------------------------------

  /**
   * What one line of `village.txt` contributes: with at least five fields,
   * player field `"0"`, both coordinates numbers and the village in range,
   * the barb with the id of field 0. A coordinate that is NaN makes the
   * distance test false.
   */
  function FileBarb(line: string, parseInt: string -> Option<int>, center: Coord, radius: Option<int>): Option<Barb>
  {
    var p := Split(line, ',');
    if |p| >= 5 && p[4] == "0" && parseInt(p[2]).Some? && parseInt(p[3]).Some?
       && WithinRadius(DistSq(parseInt(p[2]).value, parseInt(p[3]).value, center), radius)
    then Some(Barb(p[0], parseInt(p[2]).value, parseInt(p[3]).value,
                   DistSq(parseInt(p[2]).value, parseInt(p[3]).value, center)))
    else None
  }

  /** The `forEach` over the lines of the file, before sorting. */
  function FileBarbs(lines: seq<string>, parseInt: string -> Option<int>, center: Coord, radius: Option<int>): (r: seq<Barb>)
    ensures forall b :: b in r <==> exists i :: 0 <= i < |lines| && FileBarb(lines[i], parseInt, center, radius) == Some(b)
    ensures |r| <= |lines|
  {
    if lines == [] then []
    else
      var rest := FileBarbs(lines[1..], parseInt, center, radius);
      assert forall i :: 1 <= i < |lines| ==> lines[i] == lines[1..][i - 1];
      match FileBarb(lines[0], parseInt, center, radius)
      case Some(b) => [b] + rest
      case None => rest
  }

  /** Every barb read from the file is a barbarian line's village, within the radius. */
  lemma FileBarbIsBarbarianInRange(line: string, parseInt: string -> Option<int>, center: Coord, radius: Option<int>)
    requires FileBarb(line, parseInt, center, radius).Some?
    ensures var b := FileBarb(line, parseInt, center, radius).value;
      && |Split(line, ',')| >= 5
      && Split(line, ',')[4] == "0"
      && b.id == Split(line, ',')[0]
      && Some(b.x) == parseInt(Split(line, ',')[2]) && Some(b.y) == parseInt(Split(line, ',')[3])
      && b.distSq == (b.x - center.x) * (b.x - center.x) + (b.y - center.y) * (b.y - center.y)
      && radius.Some? && b.distSq <= radius.value * radius.value
  {
  }

  // ---------------------------------------------------------------------
  // fetchBarbs
  // ---------------------------------------------------------------------

  /** The villages a source offers, before sorting. */
  function Candidates(source: BarbSource, parseInt: string -> Option<int>, center: Coord, radius: Option<int>): seq<Barb>
  {
    match source
    case LoadedMap(vs) => MapBarbs(vs, center, radius)
    case VillageFile(None) => []
    case VillageFile(Some(text)) => FileBarbs(Split(text, '\n'), parseInt, center, radius)
  }

  /** A barb is in range of the current village. */
  predicate InRange(b: Barb, center: Coord, radius: Option<int>)
  {
    b.distSq == DistSq(b.x, b.y, center) && WithinRadius(b.distSq, radius)
  }

  /**
   * `fetchBarbs()`. A non-empty cached list is returned as it is; otherwise
   * the source's barbs are sorted nearest first by a stable sort, so barbs
   * at the same distance keep the source's order. A failed
   * file request yields no barbs. The result is also what the script
   * caches, so a non-empty result is never recomputed.
   */
  function FetchBarbs(cached: seq<Barb>, source: BarbSource, parseInt: string -> Option<int>,
                      center: Coord, radius: Option<int>): (r: seq<Barb>)
    ensures |cached| > 0 ==> r == cached
    ensures |cached| == 0 ==> Sorting.SortedBy(r, DistKey)
    ensures |cached| == 0 ==> forall b :: b in r <==> b in Candidates(source, parseInt, center, radius)
    ensures |cached| == 0 ==> multiset(r) == multiset(Candidates(source, parseInt, center, radius))
    ensures |cached| == 0 ==> forall k :: Sorting.WithKey(r, DistKey, k) ==
                                         Sorting.WithKey(Candidates(source, parseInt, center, radius), DistKey, k)
    ensures |cached| == 0 ==> forall b :: b in r ==> InRange(b, center, radius)
    ensures |cached| == 0 && source == VillageFile(None) ==> r == []
    ensures |cached| == 0 && radius.None? ==> r == []
  {
    if |cached| > 0 then cached
    else
      var c := Candidates(source, parseInt, center, radius);
      Sorting.SortByKeepsElements(c, DistKey);
      Sorting.SortByStable(c, DistKey);
      CandidatesInRange(source, parseInt, center, radius);
      Sorting.SortBy(c, DistKey)
  }

  /** Whatever the source, its candidates are in range, and without a radius there are none. */
  lemma CandidatesInRange(source: BarbSource, parseInt: string -> Option<int>, center: Coord, radius: Option<int>)
    ensures forall b :: b in Candidates(source, parseInt, center, radius) ==> InRange(b, center, radius)
    ensures radius.None? ==> Candidates(source, parseInt, center, radius) == []
  {
    var c := Candidates(source, parseInt, center, radius);
    forall b | b in c
      ensures InRange(b, center, radius)
    {
      if source.VillageFile? {
        var lines := Split(source.text.value, '\n');
        var i :| 0 <= i < |lines| && FileBarb(lines[i], parseInt, center, radius) == Some(b);
      }
    }
    if c != [] {
      assert c[0] in c;
    }
  }

  // ---------------------------------------------------------------------
  // Distance versus squared distance
  // ---------------------------------------------------------------------

  /** For non-negative numbers, comparing squares compares the numbers. */
  lemma SquareMonotone(a: real, b: real)
    requires a >= 0.0 && b >= 0.0
    ensures a <= b <==> a * a <= b * b
  {
    assert b * b - a * a == (b - a) * (b + a);
    if a <= b {
      assert (b - a) * (b + a) >= 0.0;
    } else {
      var x, y := a - b, b + a;
      assert x > 0.0 && y > 0.0;
      assert x * y > 0.0;
      assert (a - b) * (b + a) == x * y;
    }
  }

  /** Two barbs compare by distance as they compare by squared distance. */
  lemma PairSameOrder(a: Barb, b: Barb, da: real, db: real)
    requires da >= 0.0 && da * da == a.distSq as real
    requires db >= 0.0 && db * db == b.distSq as real
    ensures DistKey(a) <= DistKey(b) <==> da <= db
  {
    SquareMonotone(da, db);
  }

  /**
   * Sorting by `Math.sqrt(dx * dx + dy * dy)` orders exactly like sorting by
   * the squared distance: any non-negative `dist` whose square is `distSq`
   * gives the same sortedness.
   */
  lemma SortedByDistanceIffBySquare(bs: seq<Barb>, dist: Barb -> real)
    requires forall b :: dist(b) >= 0.0 && dist(b) * dist(b) == b.distSq as real
    ensures Sorting.SortedBy(bs, DistKey) <==> Sorting.SortedBy(bs, dist)
  {
    forall i, j | 0 <= i < j < |bs|
      ensures DistKey(bs[i]) <= DistKey(bs[j]) <==> dist(bs[i]) <= dist(bs[j])
    {
      PairSameOrder(bs[i], bs[j], dist(bs[i]), dist(bs[j]));
    }
  }
}

=== FILE: snipe_plan.dfy ===
/**
 * `calculateSnipe` of the Bounce Snipe script: from the two selected
 * incoming attacks and the barbs in range, the sends whose troops come
 * back from a barb exactly at the whole second of the later attack, each
 * with its rally-point link. The travel time of a unit to a barb is an
 * input (`travelSeconds`), as are the unit counts and the current time.
 */
module SnipePlan {
  import opened Js
  import opened Decimal
  import opened SnipeSelection
  import opened SnipeBarbs
  import opened SnipeUnits
  import Sorting

  /** One planned send. */
  datatype Row = Row(unit: string, target: Barb, launch: int, returnAt: int, url: string)

  /** What the calculation yields. */
  datatype Outcome =
    | NeedTwoAttacks
    | NoBarbs
      /** The selection was ordered by time, but no send launches in the future. */
    | NoSnipes(ordered: seq<Attack>)
    | Planned(ordered: seq<Attack>, target: int, warning: bool, rows: seq<Row>)

  // ---------------------------------------------------------------------
  // The return target
  // ---------------------------------------------------------------------

  /**
   * `setMilliseconds(0)` on the later arrival: the time cut down to its
   * whole second. Time values split into seconds and milliseconds by the
   * floor modulus, which is Dafny's `%` for a positive divisor.
   */
  function WholeSecond(t: int): (r: int)
    ensures r % 1000 == 0
    ensures r <= t < r + 1000
  {
    t - t % 1000
  }

  /** Only one whole second lies in any 1000 ms window ending at `t`. */
  lemma WholeSecondUnique(t: int, r: int)
    requires r % 1000 == 0 && r <= t < r + 1000
    ensures r == WholeSecond(t)
  {
    var w := WholeSecond(t);
    assert (r - w) % 1000 == 0;
    assert -1000 < r - w < 1000;
  }

  function AttackTime(a: Attack): real
  {
    a.time as real
  }

  /** The selection sorted in place by ascending attack time. */
  function OrderByTime(selected: seq<Attack>): (ordered: seq<Attack>)
    ensures multiset(ordered) == multiset(selected)
    ensures |ordered| == |selected|
    ensures forall i, j :: 0 <= i < j < |ordered| ==> ordered[i].time <= ordered[j].time
  {
    Sorting.SortBy(selected, AttackTime)
  }

  // ---------------------------------------------------------------------
  // The send link
  // ---------------------------------------------------------------------

  /** The unit name, `=`, then its count in decimal. */
  function UrlParam(u: string, count: nat): string
  {
    u + "=" + NatToString(count)
  }

  /** `p` is the parameter of `group[k]`, whose count is known and positive. */
  ghost predicate ParamAt(counts: map<string, int>, group: seq<string>, k: int, p: string)
  {
    && 0 <= k < |group|
    && group[k] in counts
    && counts[group[k]] > 0
    && p == UrlParam(group[k], counts[group[k]])
  }

  /** The parameters for the units of `group` with a known positive count, in group order. */
  function UrlParams(counts: Option<map<string, int>>, group: seq<string>): (ps: seq<string>)
    ensures counts.None? ==> ps == []
    ensures |ps| <= |group|
    ensures forall p :: p in ps <==> counts.Some? && exists k :: ParamAt(counts.value, group, k, p)
  {
    if group == [] || counts.None? then []
    else
      var rest := UrlParams(counts, group[1..]);
      var u := group[0];
      var head := if u in counts.value && counts.value[u] > 0 then [UrlParam(u, counts.value[u])] else [];
      assert forall p :: p in head + rest <==> exists k :: ParamAt(counts.value, group, k, p) by {
        forall p
          ensures p in head + rest <==> exists k :: ParamAt(counts.value, group, k, p)
        {
          assert p in head + rest <==> p in head || p in rest;
          assert p in head <==> ParamAt(counts.value, group, 0, p);
          if p in rest {
            var k :| ParamAt(counts.value, group[1..], k, p);
            assert ParamAt(counts.value, group, k + 1, p);
          }
          if exists k :: ParamAt(counts.value, group, k, p) {
            var k :| ParamAt(counts.value, group, k, p);
            if k > 0 {
              assert ParamAt(counts.value, group[1..], k - 1, p);
            }
          }
        }
      }
      head + rest
  }

  /** The parameters of two groups one after the other are those of the joined group: group order is kept. */
  lemma {:induction false} UrlParamsConcat(counts: Option<map<string, int>>, g1: seq<string>, g2: seq<string>)
    ensures UrlParams(counts, g1 + g2) == UrlParams(counts, g1) + UrlParams(counts, g2)
  {
    if counts.Some? && g1 != [] {
      assert (g1 + g2)[0] == g1[0];
      assert (g1 + g2)[1..] == g1[1..] + g2;
      UrlParamsConcat(counts, g1[1..], g2);
    } else if g1 == [] {
      assert g1 + g2 == g2;
    }
  }

  /** One unit gives its single `u=count` parameter when its count is known and positive, and nothing otherwise. */
  lemma UrlParamsOne(counts: Option<map<string, int>>, u: string)
    ensures UrlParams(counts, [u]) ==
      if counts.Some? && u in counts.value && counts.value[u] > 0 then [UrlParam(u, counts.value[u])] else []
  {
    assert [u][1..] == [];
  }

  const PlacePath := "/game.php?screen=place"

  /**
   * The "Send All" link for sniping with `unit`: the rally point aimed at the
   * barb, then one `&u=count` for every unit the sniping unit takes along
   * that has a known positive count; no `&` is added when there is none.
   */
  function SendUrl(barbId: string, counts: Option<map<string, int>>, unit: string): string
  {
    var ps := UrlParams(counts, SlowerOrEqualUnits(unit));
    PlacePath + "&" + ("target=" + barbId) + (if |ps| > 0 then "&" + Join(ps, '&') else "")
  }

  /** No unit name contains `&` or `=`. */
  lemma UnitNamesPlain(u: string)
    requires u in UnitNames
    ensures '&' !in u && '=' !in u
  {
  }

  /** No parameter of a link contains `&`. */
  lemma UrlParamsPlain(counts: Option<map<string, int>>, unit: string)
    ensures forall p :: p in UrlParams(counts, SlowerOrEqualUnits(unit)) ==> '&' !in p
  {
    var group := SlowerOrEqualUnits(unit);
    forall p | p in UrlParams(counts, group)
      ensures '&' !in p
    {
      var k :| ParamAt(counts.value, group, k, p);
      var u := group[k];
      assert u in group;
      SpeedOfUnit(u);
      UnitNamesPlain(u);
      var digits := NatToString(counts.value[u]);
      assert forall i :: 0 <= i < |digits| ==> digits[i] != '&';
      assert p == u + "=" + digits;
    }
  }

  /** The fields of a link, split on `&`: the path, the target, and the parameters in order. */
  lemma SendUrlFields(barbId: string, counts: Option<map<string, int>>, unit: string)
    requires '&' !in barbId
    ensures Split(SendUrl(barbId, counts, unit), '&') ==
      [PlacePath, "target=" + barbId] + UrlParams(counts, SlowerOrEqualUnits(unit))
  {
    var ps := UrlParams(counts, SlowerOrEqualUnits(unit));
    UrlParamsPlain(counts, unit);
    TargetFieldPlain(barbId);
    LinkFields(PlacePath, "target=" + barbId, ps);
  }

  lemma TargetFieldPlain(barbId: string)
    requires '&' !in barbId
    ensures '&' !in PlacePath && '&' !in "target=" + barbId
  {
  }

  /** A link of a path, one field and a tail of fields splits back into them. */
  lemma {:induction false} LinkFields(path: string, t: string, ps: seq<string>)
    requires '&' !in path && '&' !in t
    requires forall p :: p in ps ==> '&' !in p
    ensures Split(path + "&" + t + (if |ps| > 0 then "&" + Join(ps, '&') else ""), '&') == [path, t] + ps
  {
    var rest := if |ps| > 0 then "&" + Join(ps, '&') else "";
    assert path + "&" + t + rest == path + ['&'] + (t + rest);
    SplitAfterField(path, '&', t + rest);
    if |ps| > 0 {
      assert forall i :: 0 <= i < |ps| ==> '&' !in ps[i] by {
        forall i | 0 <= i < |ps|
          ensures '&' !in ps[i]
        {
          assert ps[i] in ps;
        }
      }
      assert t + rest == t + ['&'] + Join(ps, '&');
      SplitAfterField(t, '&', Join(ps, '&'));
      SplitJoin(ps, '&');
    } else {
      assert t + rest == t;
      SplitWithoutSeparator(t, '&');
    }
  }

  /** A parameter splits on `=` into the unit and the count, which reads back. */
  lemma UrlParamRoundTrip(u: string, count: nat)
    requires '=' !in u
    ensures Split(UrlParam(u, count), '=') == [u, NatToString(count)]
    ensures ParseNat(Split(UrlParam(u, count), '=')[1]) == Some(count)
  {
    var digits := NatToString(count);
    assert forall i :: 0 <= i < |digits| ==> digits[i] != '=';
    SplitJoin([u, digits], '=');
    assert Join([u, digits], '=') == UrlParam(u, count);
    ParseNatToString(count);
  }

  // ---------------------------------------------------------------------
  // Plan rows
  // ---------------------------------------------------------------------

  /**
   * Whether a unit is tried: with unknown counts every unit is; with known
   * counts only a unit whose count is present and positive.
   */
  predicate Usable(counts: Option<map<string, int>>, u: string)
  {
    counts.None? || (u in counts.value && counts.value[u] > 0)
  }

  /** The send of `unit` to `barb`, when the unit is usable and its launch is still ahead. */
  function RowFor(barb: Barb, unit: string, counts: Option<map<string, int>>,
                  travelSeconds: (Barb, string) -> nat, target: int, now: int): Option<Row>
  {
    var travelMs := travelSeconds(barb, unit) * 1000;
    var launch := target - travelMs * 2;
    if Usable(counts, unit) && launch > now then
      Some(Row(unit, barb, launch, target, SendUrl(barb.id, counts, unit)))
    else None
  }

  /** `rowFor` builds `row` from barb `i` and unit `k`. */
  ghost predicate BuildsAt(rowFor: (Barb, string) -> Option<Row>, barbs: seq<Barb>, units: seq<string>,
                           i: int, k: int, row: Row)
  {
    0 <= i < |barbs| && 0 <= k < |units| && rowFor(barbs[i], units[k]) == Some(row)
  }

  /** The inner loop over `units` for one barb, with `rowFor` deciding each send. */
  function UnitRows(barb: Barb, units: seq<string>, rowFor: (Barb, string) -> Option<Row>): (r: seq<Row>)
    ensures |r| <= |units|
    ensures forall row :: row in r <==> exists k :: BuildsAt(rowFor, [barb], units, 0, k, row)
  {
    if units == [] then []
    else
      var rest := UnitRows(barb, units[1..], rowFor);
      var first := rowFor(barb, units[0]);
      var head := if first.Some? then [first.value] else [];
      assert forall row :: row in head + rest <==> exists k :: BuildsAt(rowFor, [barb], units, 0, k, row) by {
        forall row
          ensures row in head + rest <==> exists k :: BuildsAt(rowFor, [barb], units, 0, k, row)
        {
          assert row in head + rest <==> row in head || row in rest;
          assert row in head <==> BuildsAt(rowFor, [barb], units, 0, 0, row);
          if row in rest {
            var k :| BuildsAt(rowFor, [barb], units[1..], 0, k, row);
            assert BuildsAt(rowFor, [barb], units, 0, k + 1, row);
          }
          if exists k :: BuildsAt(rowFor, [barb], units, 0, k, row) {
            var k :| BuildsAt(rowFor, [barb], units, 0, k, row);
            if k > 0 {
              assert BuildsAt(rowFor, [barb], units[1..], 0, k - 1, row);
            }
          }
        }
      }
      head + rest
  }

  /** The outer loop over the barbs around the inner loop over the units, before sorting. */
  function BarbRows(barbs: seq<Barb>, units: seq<string>, rowFor: (Barb, string) -> Option<Row>): (r: seq<Row>)
    ensures |r| <= |units| * |barbs|
    ensures forall row :: row in r <==> exists i, k :: BuildsAt(rowFor, barbs, units, i, k, row)
  {
    if barbs == [] then []
    else
      var here := UnitRows(barbs[0], units, rowFor);
      var rest := BarbRows(barbs[1..], units, rowFor);
      assert |units| * |barbs| == |units| * (|barbs| - 1) + |units|;
      assert forall row :: row in here + rest <==> exists i, k :: BuildsAt(rowFor, barbs, units, i, k, row) by {
        forall row
          ensures row in here + rest <==> exists i, k :: BuildsAt(rowFor, barbs, units, i, k, row)
        {
          assert row in here + rest <==> row in here || row in rest;
          if row in here {
            var k :| BuildsAt(rowFor, [barbs[0]], units, 0, k, row);
            assert BuildsAt(rowFor, barbs, units, 0, k, row);
          }
          if row in rest {
            var i, k :| BuildsAt(rowFor, barbs[1..], units, i, k, row);
            assert BuildsAt(rowFor, barbs, units, i + 1, k, row);
          }
          if exists i, k :: BuildsAt(rowFor, barbs, units, i, k, row) {
            var i, k :| BuildsAt(rowFor, barbs, units, i, k, row);
            if i > 0 {
              assert BuildsAt(rowFor, barbs[1..], units, i - 1, k, row);
            } else {
              assert BuildsAt(rowFor, [barbs[0]], units, 0, k, row);
            }
          }
        }
      }
      here + rest
  }

  /** The send of some unit of the table to some barb of the list. */
  ghost predicate IsCandidate(barbs: seq<Barb>, counts: Option<map<string, int>>,
                              travelSeconds: (Barb, string) -> nat, target: int, now: int, row: Row)
  {
    exists i, k :: 0 <= i < |barbs| && 0 <= k < |UnitNames|
      && RowFor(barbs[i], UnitNames[k], counts, travelSeconds, target, now) == Some(row)
  }

  /** `RowFor` with everything but the barb and the unit fixed. */
  function PlanRowFor(counts: Option<map<string, int>>, travelSeconds: (Barb, string) -> nat,
                      target: int, now: int): (Barb, string) -> Option<Row>
  {
    (b, u) => RowFor(b, u, counts, travelSeconds, target, now)
  }

  /** The rows of every barb against every unit of the table, before sorting. */
  function PlanRows(barbs: seq<Barb>, counts: Option<map<string, int>>,
                    travelSeconds: (Barb, string) -> nat, target: int, now: int): (r: seq<Row>)
    ensures |r| <= 12 * |barbs|
    ensures forall row :: row in r <==> IsCandidate(barbs, counts, travelSeconds, target, now, row)
  {
    var rowFor := PlanRowFor(counts, travelSeconds, target, now);
    var r := BarbRows(barbs, UnitNames, rowFor);
    UnitsTable();
    assert forall row :: IsCandidate(barbs, counts, travelSeconds, target, now, row) <==>
      exists i, k :: BuildsAt(rowFor, barbs, UnitNames, i, k, row) by {
      forall row
        ensures IsCandidate(barbs, counts, travelSeconds, target, now, row) <==>
          exists i, k :: BuildsAt(rowFor, barbs, UnitNames, i, k, row)
      {
        if IsCandidate(barbs, counts, travelSeconds, target, now, row) {
          var i, k :| 0 <= i < |barbs| && 0 <= k < |UnitNames|
            && RowFor(barbs[i], UnitNames[k], counts, travelSeconds, target, now) == Some(row);
          assert BuildsAt(rowFor, barbs, UnitNames, i, k, row);
        }
      }
    }
    r
  }

  /** Every row `rowFor` builds names the barb and the unit it was built from. */
  ghost predicate Tagged(rowFor: (Barb, string) -> Option<Row>)
  {
    forall b, u :: rowFor(b, u).Some? ==> rowFor(b, u).value.target == b && rowFor(b, u).value.unit == u
  }

  /** For distinct units the inner loop yields each send at most once, all aimed at its barb. */
  lemma {:induction false} UnitRowsDistinct(barb: Barb, units: seq<string>, rowFor: (Barb, string) -> Option<Row>)
    requires Sorting.Distinct(units) && Tagged(rowFor)
    ensures Sorting.Distinct(UnitRows(barb, units, rowFor))
    ensures forall row :: row in UnitRows(barb, units, rowFor) ==> row.target == barb
  {
    var r := UnitRows(barb, units, rowFor);
    forall row | row in r
      ensures row.target == barb
    {
      var k :| BuildsAt(rowFor, [barb], units, 0, k, row);
    }
    if units != [] {
      var rest := UnitRows(barb, units[1..], rowFor);
      UnitRowsDistinct(barb, units[1..], rowFor);
      var first := rowFor(barb, units[0]);
      if first.Some? {
        assert r == [first.value] + rest;
        forall j | 0 <= j < |rest|
          ensures rest[j] != first.value
        {
          assert rest[j] in rest;
          var k :| BuildsAt(rowFor, [barb], units[1..], 0, k, rest[j]);
          assert units[1..][k] == units[k + 1];
        }
        Sorting.ConcatDistinct([first.value], rest);
      } else {
        assert r == rest;
      }
    }
  }

  /** For distinct barbs and distinct units the nested loops yield each send at most once. */
  lemma {:induction false} BarbRowsDistinct(barbs: seq<Barb>, units: seq<string>, rowFor: (Barb, string) -> Option<Row>)
    requires Sorting.Distinct(barbs) && Sorting.Distinct(units) && Tagged(rowFor)
    ensures Sorting.Distinct(BarbRows(barbs, units, rowFor))
  {
    if barbs != [] {
      var here := UnitRows(barbs[0], units, rowFor);
      var rest := BarbRows(barbs[1..], units, rowFor);
      UnitRowsDistinct(barbs[0], units, rowFor);
      BarbRowsDistinct(barbs[1..], units, rowFor);
      forall i, j | 0 <= i < |here| && 0 <= j < |rest|
        ensures here[i] != rest[j]
      {
        assert here[i] in here && rest[j] in rest;
        var b, k :| BuildsAt(rowFor, barbs[1..], units, b, k, rest[j]);
        assert barbs[1..][b] == barbs[b + 1];
      }
      Sorting.ConcatDistinct(here, rest);
    }
  }

  /** Over a list of distinct barbs, no candidate send is built twice. */
  lemma PlanRowsDistinct(barbs: seq<Barb>, counts: Option<map<string, int>>,
                         travelSeconds: (Barb, string) -> nat, target: int, now: int)
    requires Sorting.Distinct(barbs)
    ensures Sorting.Distinct(PlanRows(barbs, counts, travelSeconds, target, now))
  {
    UnitsTable();
    assert Sorting.Distinct(UnitNames) by {
      forall i, j | 0 <= i < j < |UnitNames|
        ensures UnitNames[i] != UnitNames[j]
      {
        assert UnitNames[i] == Units[i].name && UnitNames[j] == Units[j].name;
      }
    }
    BarbRowsDistinct(barbs, UnitNames, PlanRowFor(counts, travelSeconds, target, now));
  }

  function LaunchKey(row: Row): real
  {
    row.launch as real
  }

  // ---------------------------------------------------------------------
  // calculateSnipe
  // ---------------------------------------------------------------------

  /**
   * `calculateSnipe()`. Nothing happens unless exactly two attacks are
   * selected and some barb is known. Otherwise the selection is put in time
   * order; the target is the later arrival cut to its whole second, with a
   * warning when that is not after the earlier arrival; every usable unit
   * is tried against every barb, launching `2 · travel` before the target,
   * and only launches after `now` are kept, soonest first.
   */
  function CalculateSnipe(selected: seq<Attack>, barbs: seq<Barb>, counts: Option<map<string, int>>,
                          travelSeconds: (Barb, string) -> nat, now: int): (o: Outcome)
    ensures |selected| != 2 <==> o == NeedTwoAttacks
    ensures |selected| == 2 && |barbs| == 0 <==> o == NoBarbs
    ensures (o.NoSnipes? || o.Planned?) ==>
      && multiset(o.ordered) == multiset(selected) && |o.ordered| == 2
      && o.ordered[0].time <= o.ordered[1].time
    ensures o.Planned? ==>
      && o.target % 1000 == 0 && o.target <= o.ordered[1].time < o.target + 1000
      && (o.warning <==> o.target <= o.ordered[0].time)
      && |o.rows| > 0 && |o.rows| <= 12 * |barbs|
      && Sorting.SortedBy(o.rows, LaunchKey)
      && (forall row :: row in o.rows <==> IsCandidate(barbs, counts, travelSeconds, o.target, now, row))
    ensures o.Planned? ==>
      && multiset(o.rows) == multiset(PlanRows(barbs, counts, travelSeconds, o.target, now))
      && forall k :: Sorting.WithKey(o.rows, LaunchKey, k) ==
                     Sorting.WithKey(PlanRows(barbs, counts, travelSeconds, o.target, now), LaunchKey, k)
    ensures o.NoSnipes? ==> forall row :: !IsCandidate(barbs, counts, travelSeconds, WholeSecond(o.ordered[1].time), now, row)
  {
    if |selected| != 2 then NeedTwoAttacks
    else if |barbs| == 0 then NoBarbs
    else
      var ordered := OrderByTime(selected);
      var target := WholeSecond(ordered[1].time);
      var rows := PlanRows(barbs, counts, travelSeconds, target, now);
      if |rows| == 0 then
        assert forall row :: row !in rows;
        NoSnipes(ordered)
      else
        Sorting.SortByKeepsElements(rows, LaunchKey);
        Sorting.SortByStable(rows, LaunchKey);
        Planned(ordered, target, target <= ordered[0].time, Sorting.SortBy(rows, LaunchKey))
  }

  /**
   * Every planned send leaves after `now`, uses a usable unit of the table
   * against a listed barb, and returns exactly at the target: the launch
   * plus the round trip of twice the travel time is the target.
   */
  lemma PlannedRowsReturnAtTarget(selected: seq<Attack>, barbs: seq<Barb>, counts: Option<map<string, int>>,
                                  travelSeconds: (Barb, string) -> nat, now: int, row: Row)
    requires CalculateSnipe(selected, barbs, counts, travelSeconds, now).Planned?
    requires row in CalculateSnipe(selected, barbs, counts, travelSeconds, now).rows
    ensures var o := CalculateSnipe(selected, barbs, counts, travelSeconds, now);
      && row.launch > now
      && row.returnAt == o.target
      && row.launch + 2 * 1000 * travelSeconds(row.target, row.unit) == o.target
      && row.target in barbs && row.unit in UnitNames
      && Usable(counts, row.unit)
      && row.url == SendUrl(row.target.id, counts, row.unit)
  {
    var o := CalculateSnipe(selected, barbs, counts, travelSeconds, now);
    var i, k :| 0 <= i < |barbs| && 0 <= k < |UnitNames|
      && RowFor(barbs[i], UnitNames[k], counts, travelSeconds, o.target, now) == Some(row);
  }

  /** Every usable unit whose send to a listed barb would still leave after `now` is planned. */
  lemma EveryFutureSendIsPlanned(selected: seq<Attack>, barbs: seq<Barb>, counts: Option<map<string, int>>,
                                 travelSeconds: (Barb, string) -> nat, now: int, i: nat, k: nat)
    requires |selected| == 2
    requires i < |barbs| && k < |UnitNames|
    requires Usable(counts, UnitNames[k])
    requires WholeSecond(OrderByTime(selected)[1].time) - 2 * 1000 * travelSeconds(barbs[i], UnitNames[k]) > now
    ensures var o := CalculateSnipe(selected, barbs, counts, travelSeconds, now);
      && o.Planned?
      && exists row :: row in o.rows && row.target == barbs[i] && row.unit == UnitNames[k]
  {
    var target := WholeSecond(OrderByTime(selected)[1].time);
    var row := RowFor(barbs[i], UnitNames[k], counts, travelSeconds, target, now).value;
    assert IsCandidate(barbs, counts, travelSeconds, target, now, row);
    var o := CalculateSnipe(selected, barbs, counts, travelSeconds, now);
    assert row in o.rows;
  }

  /** Over a list of distinct barbs, a plan holds each send once. */
  lemma PlannedRowsDistinct(selected: seq<Attack>, barbs: seq<Barb>, counts: Option<map<string, int>>,
                            travelSeconds: (Barb, string) -> nat, now: int)
    requires Sorting.Distinct(barbs)
    ensures var o := CalculateSnipe(selected, barbs, counts, travelSeconds, now);
      o.Planned? ==> Sorting.Distinct(o.rows)
  {
    var o := CalculateSnipe(selected, barbs, counts, travelSeconds, now);
    if o.Planned? {
      var rows := PlanRows(barbs, counts, travelSeconds, o.target, now);
      PlanRowsDistinct(barbs, counts, travelSeconds, o.target, now);
      Sorting.SortByDistinct(rows, LaunchKey);
    }
  }

  /**
   * Without a warning the target lies inside the gap: after the earlier
   * arrival and no later than the later one.
   */
  lemma TargetInsideGap(selected: seq<Attack>, barbs: seq<Barb>, counts: Option<map<string, int>>,
                        travelSeconds: (Barb, string) -> nat, now: int)
    requires CalculateSnipe(selected, barbs, counts, travelSeconds, now).Planned?
    requires !CalculateSnipe(selected, barbs, counts, travelSeconds, now).warning
    ensures var o := CalculateSnipe(selected, barbs, counts, travelSeconds, now);
      o.ordered[0].time < o.target <= o.ordered[1].time
  {
  }
}

=== FILE: snipe_selection.dfy ===
/**
 * The attack-selection state of the Bounce Snipe script: the `change`
 * handler of the checkboxes next to incoming attacks, which keeps at most
 * two selected arrival times.
 */
module SnipeSelection {
  import opened Js

  /** A selected incoming attack: its arrival time in milliseconds and its row label. */
  datatype Attack = Attack(time: int, caption: string)

  /** Why a change was undone. */
  datatype Refusal = UnreadableTime | TooMany

  /** A checkbox change: the box's new state and `parseInt` of its `data-time` (`None` for NaN). */
  datatype Toggle = Toggle(checked: bool, time: Option<int>, caption: string)

  /** The handler's effect: the new selection, whether the box stays checked, and any refusal. */
  datatype Handled = Handled(selected: seq<Attack>, boxChecked: bool, refusal: Option<Refusal>)

  /** The selected attacks whose time differs from `ms`, in their order. */
  function RemoveTime(selected: seq<Attack>, ms: int): (r: seq<Attack>)
    ensures forall a :: a in r <==> a in selected && a.time != ms
    ensures |r| <= |selected|
  {
    if selected == [] then []
    else
      var rest := RemoveTime(selected[1..], ms);
      assert forall a :: a in selected <==> a == selected[0] || a in selected[1..];
      if selected[0].time == ms then rest else [selected[0]] + rest
  }

  /**
   * The checkbox `change` handler. An unreadable time unchecks the box and
   * changes nothing; checking a third box is refused and unchecks it;
   * checking otherwise appends the attack; unchecking drops every selected
   * attack with that time.
   */
  function OnChange(selected: seq<Attack>, t: Toggle): (h: Handled)
    ensures |selected| <= 2 ==> |h.selected| <= 2
    ensures h.refusal.Some? ==> h.selected == selected && !h.boxChecked
    ensures t.time.None? <==> h.refusal == Some(UnreadableTime)
    ensures t.time.Some? && t.checked && |selected| >= 2 ==> h.refusal == Some(TooMany)
    ensures h.refusal.None? ==> h.boxChecked == t.checked
  {
    match t.time
    case None => Handled(selected, false, Some(UnreadableTime))
    case Some(ms) =>
      if t.checked then
        if |selected| >= 2 then Handled(selected, false, Some(TooMany))
        else Handled(selected + [Attack(ms, t.caption)], true, None)
      else
        Handled(RemoveTime(selected, ms), false, None)
  }

  /** The selection after a sequence of checkbox changes. */
  function Replay(selected: seq<Attack>, changes: seq<Toggle>): seq<Attack>
    decreases |changes|
  {
    if changes == [] then selected
    else Replay(OnChange(selected, changes[0]).selected, changes[1..])
  }

  /** Whatever boxes are clicked, starting from at most two selected attacks there are never more than two. */
  lemma {:induction false} SelectionNeverExceedsTwo(selected: seq<Attack>, changes: seq<Toggle>)
    requires |selected| <= 2
    ensures |Replay(selected, changes)| <= 2
    decreases |changes|
  {
    if changes != [] {
      SelectionNeverExceedsTwo(OnChange(selected, changes[0]).selected, changes[1..]);
    }
  }

  /** Checking a box while fewer than two are selected appends exactly that attack at the end. */
  lemma CheckAppends(selected: seq<Attack>, ms: int, caption: string)
    requires |selected| < 2
    ensures OnChange(selected, Toggle(true, Some(ms), caption)).selected == selected + [Attack(ms, caption)]
    ensures OnChange(selected, Toggle(true, Some(ms), caption)).selected[..|selected|] == selected
  {
  }

  /** Unchecking filters piecewise: the order of the kept attacks is the order they had. */
  lemma {:induction false} RemoveTimeConcat(a: seq<Attack>, b: seq<Attack>, ms: int)
    ensures RemoveTime(a + b, ms) == RemoveTime(a, ms) + RemoveTime(b, ms)
  {
    if a == [] {
      assert a + b == b;
    } else {
      assert (a + b)[0] == a[0];
      assert (a + b)[1..] == a[1..] + b;
      RemoveTimeConcat(a[1..], b, ms);
    }
  }

  /** Unchecking a time nobody selected leaves the selection as it was. */
  lemma {:induction false} RemoveAbsentTime(selected: seq<Attack>, ms: int)
    requires forall i :: 0 <= i < |selected| ==> selected[i].time != ms
    ensures RemoveTime(selected, ms) == selected
  {
    if selected != [] {
      RemoveAbsentTime(selected[1..], ms);
    }
  }

  /** Checking a box and then unchecking it restores a selection that did not hold its time. */
  lemma CheckThenUncheck(selected: seq<Attack>, ms: int, caption: string)
    requires |selected| < 2
    requires forall i :: 0 <= i < |selected| ==> selected[i].time != ms
    ensures OnChange(OnChange(selected, Toggle(true, Some(ms), caption)).selected,
                     Toggle(false, Some(ms), caption)).selected == selected
  {
    RemoveTimeConcat(selected, [Attack(ms, caption)], ms);
    RemoveAbsentTime(selected, ms);
  }
}

=== FILE: snipe_timer.dfy ===
/**
 * `formatTimer` of the Bounce Snipe script: whole seconds until a launch
 * shown as `h:mm:ss`, or `PASSED` once the launch is behind.
 */
module SnipeTimer {
  import opened Js
  import opened Decimal

  const Passed := "PASSED"

  /**
   * `formatTimer(sec)` for whole seconds: `PASSED` for a negative count,
   * otherwise hours (unpadded), then minutes and seconds each padded to two
   * digits, separated by `:`.
   */
  function FormatTimer(sec: int): (r: string)
    ensures r == Passed <==> sec < 0
  {
    if sec < 0 then Passed
    else
      var h := sec / 3600;
      var m := (sec % 3600) / 60;
      var s := sec % 60;
      var text := NatToString(h) + ":" + Pad2(m) + ":" + Pad2(s);
      assert text[0] == NatToString(h)[0];
      assert IsDigit(text[0]) && !IsDigit(Passed[0]);
      text
  }

  /**
   * Reads a countdown back: three `:`-separated fields, the last two of
   * exactly two digits below 60, gives the number of seconds.
   */
  function ReadTimer(text: string): Option<int>
  {
    var parts := Split(text, ':');
    if |parts| != 3 || |parts[1]| != 2 || |parts[2]| != 2 then None
    else
      match (ParseNat(parts[0]), ParseNat(parts[1]), ParseNat(parts[2]))
      case (Some(h), Some(m), Some(s)) => if m < 60 && s < 60 then Some(h * 3600 + m * 60 + s) else None
      case _ => None
  }

  /** Three separator-free fields joined by `sep` split back into those fields. */
  lemma SplitThree(a: string, b: string, c: string, sep: char)
    requires sep !in a && sep !in b && sep !in c
    ensures Split(a + [sep] + b + [sep] + c, sep) == [a, b, c]
  {
    var fields := [a, b, c];
    assert Join(fields, sep) == a + [sep] + b + [sep] + c by {
      assert fields[1..] == [b, c];
      assert [b, c][1..] == [c];
      assert Join([b, c], sep) == b + [sep] + c;
    }
    SplitJoin(fields, sep);
  }

  /** A digit string holds no `:`. */
  lemma DigitsHaveNoColon(t: string)
    requires forall j :: 0 <= j < |t| ==> IsDigit(t[j])
    ensures ':' !in t
  {
  }

  /** Whole hours, minutes below 60 and seconds below 60 add back up to the count. */
  lemma HoursMinutesSeconds(sec: nat)
    ensures (sec % 3600) / 60 < 60 && sec % 60 < 60
    ensures (sec / 3600) * 3600 + ((sec % 3600) / 60) * 60 + sec % 60 == sec
  {
    assert sec % 3600 == ((sec % 3600) / 60) * 60 + sec % 60;
  }

  /** A non-negative count prints as its hours, its two-digit minutes and its two-digit seconds, split by `:`. */
  lemma FormatTimerParts(sec: int)
    requires sec >= 0
    ensures Split(FormatTimer(sec), ':') == [NatToString(sec / 3600), Pad2((sec % 3600) / 60), Pad2(sec % 60)]
  {
    var h := sec / 3600;
    var m := (sec % 3600) / 60;
    var s := sec % 60;
    DigitsHaveNoColon(NatToString(h));
    DigitsHaveNoColon(Pad2(m));
    DigitsHaveNoColon(Pad2(s));
    assert FormatTimer(sec) == NatToString(h) + [':'] + Pad2(m) + [':'] + Pad2(s);
    SplitThree(NatToString(h), Pad2(m), Pad2(s), ':');
  }

  /**
   * A non-negative count prints as `h:mm:ss` with `0 <= m, s < 60`,
   * `h·3600 + m·60 + s = sec`, and minutes and seconds two digits wide.
   */
  lemma FormatTimerFields(sec: int)
    requires sec >= 0
    ensures var parts := Split(FormatTimer(sec), ':');
      && |parts| == 3
      && |parts[1]| == 2 && |parts[2]| == 2
      && exists h: nat, m: nat, s: nat ::
           && m < 60 && s < 60 && h * 3600 + m * 60 + s == sec
           && ParseNat(parts[0]) == Some(h) && ParseNat(parts[1]) == Some(m) && ParseNat(parts[2]) == Some(s)
  {
    var h := sec / 3600;
    var m := (sec % 3600) / 60;
    var s := sec % 60;
    HoursMinutesSeconds(sec);
    ParseNatToString(h);
    ParsePad2(m);
    ParsePad2(s);
    FormatTimerParts(sec);
  }

  /** A text whose three fields parse as `h`, `m < 60` and `s < 60` (two digits each for `m` and `s`) reads as `h·3600 + m·60 + s`. */
  lemma ReadTimerOfFields(text: string, h: nat, m: nat, s: nat)
    requires |Split(text, ':')| == 3
    requires |Split(text, ':')[1]| == 2 && |Split(text, ':')[2]| == 2
    requires m < 60 && s < 60
    requires ParseNat(Split(text, ':')[0]) == Some(h)
    requires ParseNat(Split(text, ':')[1]) == Some(m)
    requires ParseNat(Split(text, ':')[2]) == Some(s)
    ensures ReadTimer(text) == Some(h * 3600 + m * 60 + s)
  {
  }

  /** `PASSED` does not read as a count. */
  lemma ReadPassed()
    ensures ReadTimer(Passed) == None
  {
    SplitWithoutSeparator(Passed, ':');
  }

  /** A printed count reads back as itself. */
  lemma ReadPrinted(sec: int)
    requires sec >= 0
    ensures ReadTimer(FormatTimer(sec)) == Some(sec)
  {
    var h := sec / 3600;
    var m := (sec % 3600) / 60;
    var s := sec % 60;
    HoursMinutesSeconds(sec);
    ParseNatToString(h);
    ParsePad2(m);
    ParsePad2(s);
    FormatTimerParts(sec);
    ReadTimerOfFields(FormatTimer(sec), h, m, s);
  }

  /** Reading a printed countdown gives back the seconds; `PASSED` does not read as a count. */
  lemma ReadFormatTimer(sec: int)
    ensures sec >= 0 ==> ReadTimer(FormatTimer(sec)) == Some(sec)
    ensures sec < 0 ==> ReadTimer(FormatTimer(sec)) == None
  {
    if sec >= 0 {
      ReadPrinted(sec);
    } else {
      ReadPassed();
    }
  }
}

=== FILE: snipe_units.dfy ===
/**
 * The unit table of the Bounce Snipe script (`UNITS`: minutes per field,
 * a smaller number being faster) and `getSlowerOrEqualUnits`, the units
 * sent along with a sniping unit. The lookups are written for any table
 * with distinct names and then applied to `Units`.
 */
module SnipeUnits {
  import opened Js

  /** A unit type and its speed in minutes per field. */
  datatype Unit = Unit(name: string, minutesPerField: nat)

  /** `UNITS`, in the order of its keys. */
  const Units: seq<Unit> := [
    Unit("spear", 18), Unit("sword", 22), Unit("axe", 18), Unit("archer", 18),
    Unit("spy", 9), Unit("light", 10), Unit("marcher", 10), Unit("heavy", 11),
    Unit("ram", 30), Unit("catapult", 30), Unit("knight", 10), Unit("snob", 35)]

  /** The unit names in key order. */
  const UnitNames: seq<string> := [
    "spear", "sword", "axe", "archer", "spy", "light",
    "marcher", "heavy", "ram", "catapult", "knight", "snob"]

  /** A table is an object's entries: no key occurs twice. */
  ghost predicate DistinctNames(table: seq<Unit>)
  {
    forall i, j :: 0 <= i < j < |table| ==> table[i].name != table[j].name
  }

  /** No key of `UNITS` occurs twice. */
  lemma UnitsDistinct()
    ensures DistinctNames(Units)
  {
  }

  /** `UnitNames` lists the twelve keys of `UNITS` in order. */
  lemma UnitNamesListKeys()
    ensures |UnitNames| == |Units| == 12
    ensures forall i :: 0 <= i < |Units| ==> UnitNames[i] == Units[i].name
  {
  }

  /** `UNITS` has twelve distinct keys, listed by `UnitNames`. */
  lemma UnitsTable()
    ensures DistinctNames(Units)
    ensures |UnitNames| == |Units| == 12
    ensures forall i :: 0 <= i < |Units| ==> UnitNames[i] == Units[i].name
  {
    UnitsDistinct();
    UnitNamesListKeys();
  }

  /** `r` lists keys of `table` in the table's key order. */
  ghost predicate InKeyOrder(table: seq<Unit>, r: seq<string>)
  {
    && (forall k :: 0 <= k < |r| ==> KeyIndex(table, r[k]).Some?)
    && (forall a, b :: 0 <= a < b < |r| ==> KeyIndex(table, r[a]).value < KeyIndex(table, r[b]).value)
  }

  function IndexFrom(table: seq<Unit>, i: nat, u: string): (r: Option<nat>)
    requires i <= |table|
    ensures r.Some? ==> i <= r.value < |table| && table[r.value].name == u
    ensures r.None? ==> forall j :: i <= j < |table| ==> table[j].name != u
    decreases |table| - i
  {
    if i == |table| then None
    else if table[i].name == u then Some(i)
    else IndexFrom(table, i + 1, u)
  }

  /** The position of `u` among the keys of `table`, if it is one. */
  function KeyIndex(table: seq<Unit>, u: string): (r: Option<nat>)
    ensures r.Some? ==> r.value < |table| && table[r.value].name == u
    ensures r.None? <==> forall j :: 0 <= j < |table| ==> table[j].name != u
  {
    IndexFrom(table, 0, u)
  }

  /** With distinct keys, each entry is found at its own position. */
  lemma KeyIndexOfEntry(table: seq<Unit>, j: nat)
    requires DistinctNames(table)
    requires j < |table|
    ensures KeyIndex(table, table[j].name) == Some(j)
  {
  }

  /** `table[u]`: `None` for a name that is not a key (`undefined`). */
  function SpeedIn(table: seq<Unit>, u: string): (r: Option<nat>)
    ensures r.Some? <==> exists j :: 0 <= j < |table| && table[j].name == u
    ensures r.Some? ==> exists j :: 0 <= j < |table| && table[j] == Unit(u, r.value)
  {
    match KeyIndex(table, u)
    case Some(j) => Some(table[j].minutesPerField)
    case None => None
  }

  /** The keys of `table` from position `i` on whose speed is at most `limit`, in key order. */
  function SlowerOrEqualFrom(table: seq<Unit>, i: nat, limit: nat): (r: seq<string>)
    requires DistinctNames(table)
    requires i <= |table|
    ensures forall u :: u in r <==> exists j :: i <= j < |table| && table[j].name == u && table[j].minutesPerField <= limit
    ensures InKeyOrder(table, r)
    ensures forall k :: 0 <= k < |r| ==> KeyIndex(table, r[k]).value >= i
    decreases |table| - i
  {
    if i == |table| then []
    else
      var rest := SlowerOrEqualFrom(table, i + 1, limit);
      KeyIndexOfEntry(table, i);
      if table[i].minutesPerField <= limit then
        assert forall u :: u in [table[i].name] + rest <==> u == table[i].name || u in rest;
        [table[i].name] + rest
      else rest
  }

  /** The keys of `table` whose speed is at most `base`'s, in key order; none for an unknown `base`. */
  function SlowerOrEqualIn(table: seq<Unit>, base: string): (r: seq<string>)
    requires DistinctNames(table)
    ensures SpeedIn(table, base).None? ==> r == []
    ensures forall u :: u in r <==>
      SpeedIn(table, base).Some? && SpeedIn(table, u).Some? && SpeedIn(table, u).value <= SpeedIn(table, base).value
    ensures InKeyOrder(table, r)
  {
    match SpeedIn(table, base)
    case None => []
    case Some(limit) =>
      var r := SlowerOrEqualFrom(table, 0, limit);
      forall u
        ensures u in r <==> SpeedIn(table, u).Some? && SpeedIn(table, u).value <= limit
      {
        if SpeedIn(table, u).Some? {
          KeyIndexOfEntry(table, KeyIndex(table, u).value);
        }
      }
      r
  }

  /** `UNITS[u]`. */
  function Speed(u: string): Option<nat>
  {
    SpeedIn(Units, u)
  }

  /** The keys of `UNITS` are exactly `UnitNames`, each with its table speed. */
  lemma SpeedOfUnit(u: string)
    ensures Speed(u).Some? <==> u in UnitNames
    ensures forall j :: 0 <= j < |Units| && Units[j].name == u ==> Speed(u) == Some(Units[j].minutesPerField)
  {
    UnitsTable();
    if u in UnitNames {
      var j :| 0 <= j < |UnitNames| && UnitNames[j] == u;
      assert Units[j].name == u;
    }
    if Speed(u).Some? {
      var j := KeyIndex(Units, u).value;
      assert UnitNames[j] == u;
    }
    forall j | 0 <= j < |Units| && Units[j].name == u
      ensures Speed(u) == Some(Units[j].minutesPerField)
    {
      KeyIndexOfEntry(Units, j);
    }
  }

  /**
   * `getSlowerOrEqualUnits(baseUnit)`: the units whose speed value is at
   * most the base unit's, in key order. For a name that is not a unit the
   * comparison with `undefined` is always false, so the result is empty.
   */
  function SlowerOrEqualUnits(base: string): (r: seq<string>)
    ensures Speed(base).None? ==> r == []
    ensures forall u :: u in r <==> Speed(base).Some? && Speed(u).Some? && Speed(u).value <= Speed(base).value
    ensures InKeyOrder(Units, r)
  {
    UnitsTable();
    SlowerOrEqualIn(Units, base)
  }

  /** The unit itself is always part of its group. */
  lemma SlowerOrEqualContainsBase(base: string)
    requires base in UnitNames
    ensures base in SlowerOrEqualUnits(base)
  {
    SpeedOfUnit(base);
  }

  /** A slower unit takes along everything a faster one does. */
  lemma SlowerOrEqualMonotone(fast: string, slow: string)
    requires Speed(fast).Some? && Speed(slow).Some?
    requires Speed(fast).value <= Speed(slow).value
    ensures forall u :: u in SlowerOrEqualUnits(fast) ==> u in SlowerOrEqualUnits(slow)
  {
  }

  /** The scout is the fastest unit and goes alone. */
  lemma SpyGoesAlone()
    ensures SlowerOrEqualUnits("spy") == ["spy"]
  {
    UnitsTable();
    KeyIndexOfEntry(Units, 4);
    assert SlowerOrEqualFrom(Units, 12, 9) == [];
    assert SlowerOrEqualFrom(Units, 11, 9) == [];
    assert SlowerOrEqualFrom(Units, 10, 9) == [];
    assert SlowerOrEqualFrom(Units, 9, 9) == [];
    assert SlowerOrEqualFrom(Units, 8, 9) == [];
    assert SlowerOrEqualFrom(Units, 7, 9) == [];
    assert SlowerOrEqualFrom(Units, 6, 9) == [];
    assert SlowerOrEqualFrom(Units, 5, 9) == [];
    assert SlowerOrEqualFrom(Units, 4, 9) == ["spy"];
    assert SlowerOrEqualFrom(Units, 3, 9) == ["spy"];
    assert SlowerOrEqualFrom(Units, 2, 9) == ["spy"];
    assert SlowerOrEqualFrom(Units, 1, 9) == ["spy"];
    assert SlowerOrEqualFrom(Units, 0, 9) == ["spy"];
  }

  /** With a limit no entry exceeds, every key from position `i` on is kept. */
  lemma {:induction false} SlowerOrEqualKeepsAll(table: seq<Unit>, i: nat, limit: nat)
    requires DistinctNames(table)
    requires i <= |table|
    requires forall j :: i <= j < |table| ==> table[j].minutesPerField <= limit
    ensures |SlowerOrEqualFrom(table, i, limit)| == |table| - i
    ensures forall k :: 0 <= k < |table| - i ==> SlowerOrEqualFrom(table, i, limit)[k] == table[i + k].name
    decreases |table| - i
  {
    if i < |table| {
      var rest := SlowerOrEqualFrom(table, i + 1, limit);
      SlowerOrEqualKeepsAll(table, i + 1, limit);
      var r := SlowerOrEqualFrom(table, i, limit);
      assert r == [table[i].name] + rest;
      forall k | 0 <= k < |table| - i
        ensures r[k] == table[i + k].name
      {
        if k > 0 {
          assert r[k] == rest[k - 1];
        }
      }
    }
  }

  /** For a key `base` of the table, its group is every key whose speed is at most `base`'s. */
  lemma SlowerOrEqualInEntry(table: seq<Unit>, j: nat)
    requires DistinctNames(table)
    requires j < |table|
    ensures SlowerOrEqualIn(table, table[j].name) == SlowerOrEqualFrom(table, 0, table[j].minutesPerField)
  {
    KeyIndexOfEntry(table, j);
  }

  /** With a limit no entry exceeds, the group is the whole list of names. */
  lemma SlowerOrEqualIsAllNames(table: seq<Unit>, names: seq<string>, limit: nat)
    requires DistinctNames(table)
    requires forall j :: 0 <= j < |table| ==> table[j].minutesPerField <= limit
    requires |names| == |table|
    requires forall i :: 0 <= i < |table| ==> names[i] == table[i].name
    ensures SlowerOrEqualFrom(table, 0, limit) == names
  {
    SlowerOrEqualKeepsAll(table, 0, limit);
  }

  /** The nobleman's group is every key whose speed is at most 35. */
  lemma SnobGroupIsSlowest35()
    requires DistinctNames(Units)
    ensures SlowerOrEqualIn(Units, "snob") == SlowerOrEqualFrom(Units, 0, 35)
  {
    assert Units[11] == Unit("snob", 35);
    SlowerOrEqualInEntry(Units, 11);
  }

  /** No unit is slower than 35 minutes per field, so a limit of 35 keeps every key. */
  lemma Slowest35IsAllUnits()
    requires DistinctNames(Units)
    requires |UnitNames| == |Units|
    requires forall i :: 0 <= i < |Units| ==> UnitNames[i] == Units[i].name
    ensures SlowerOrEqualFrom(Units, 0, 35) == UnitNames
  {
    assert forall j :: 0 <= j < |Units| ==> Units[j].minutesPerField <= 35;
    SlowerOrEqualIsAllNames(Units, UnitNames, 35);
  }

  /** The nobleman is the slowest unit and takes every unit along. */
  lemma SnobTakesAll()
    ensures SlowerOrEqualUnits("snob") == UnitNames
  {
    UnitsTable();
    SnobGroupIsSlowest35();
    Slowest35IsAllUnits();
  }
}

=== FILE: sorting.dfy ===
/**
 * `Array.prototype.sort` with a numeric comparator `(a, b) => key(a) - key(b)`:
 * a stable ascending sort by a numeric key (`SortByStable`). Written as an
 * insertion sort; only its result matters, not the order of comparisons.
 */
module Sorting {

  /** Non-decreasing by `key`. */
  ghost predicate SortedBy<T>(s: seq<T>, key: T -> real)
  {
    forall i, j :: 0 <= i < j < |s| ==> key(s[i]) <= key(s[j])
  }

  /** Strictly increasing by `key`. */
  ghost predicate StrictlySortedBy<T>(s: seq<T>, key: T -> real)
  {
    forall i, j :: 0 <= i < j < |s| ==> key(s[i]) < key(s[j])
  }

  /** No element occurs twice. */
  ghost predicate Distinct<T>(s: seq<T>)
  {
    forall i, j :: 0 <= i < j < |s| ==> s[i] != s[j]
  }

  /** A permutation of `xs` plus `x` keeps every lower bound that `xs` and `x` share. */
  lemma LowerBoundKept<T>(lo: real, xs: seq<T>, x: T, rest: seq<T>, key: T -> real)
    requires forall i :: 0 <= i < |xs| ==> lo <= key(xs[i])
    requires lo <= key(x)
    requires multiset(rest) == multiset(xs) + multiset{x}
    ensures forall i :: 0 <= i < |rest| ==> lo <= key(rest[i])
  {
    forall i | 0 <= i < |rest|
      ensures lo <= key(rest[i])
    {
      var y := rest[i];
      assert y in multiset(rest);
      if y != x {
        assert y in multiset(xs);
        var k :| 0 <= k < |xs| && xs[k] == y;
      }
    }
  }

  /** A sorted sequence stays sorted behind a head no greater than any of its keys. */
  lemma ConsSorted<T>(h: T, rest: seq<T>, key: T -> real)
    requires SortedBy(rest, key)
    requires forall i :: 0 <= i < |rest| ==> key(h) <= key(rest[i])
    ensures SortedBy([h] + rest, key)
  {
    var r := [h] + rest;
    forall i, j | 0 <= i < j < |r|
      ensures key(r[i]) <= key(r[j])
    {
      assert r[j] == rest[j - 1];
      if i > 0 {
        assert r[i] == rest[i - 1];
      }
    }
  }

  /** Puts `x` in front of the first element whose key is not smaller. */
  function Insert<T>(x: T, s: seq<T>, key: T -> real): (r: seq<T>)
    requires SortedBy(s, key)
    ensures SortedBy(r, key)
    ensures multiset(r) == multiset(s) + multiset{x}
  {
    if s == [] || key(x) <= key(s[0]) then
      assert forall i :: 0 <= i < |s| ==> key(x) <= key(s[i]) by {
        forall i | 0 <= i < |s|
          ensures key(x) <= key(s[i])
        {
          assert key(s[0]) <= key(s[i]);
        }
      }
      ConsSorted(x, s, key);
      [x] + s
    else
      var rest := Insert(x, s[1..], key);
      assert s == [s[0]] + s[1..];
      assert forall i :: 0 <= i < |s[1..]| ==> key(s[0]) <= key(s[1..][i]);
      LowerBoundKept(key(s[0]), s[1..], x, rest, key);
      ConsSorted(s[0], rest, key);
      [s[0]] + rest
  }

  /** The sorted permutation; elements with equal keys keep their input order. */
  function SortBy<T>(s: seq<T>, key: T -> real): (r: seq<T>)
    ensures SortedBy(r, key)
    ensures multiset(r) == multiset(s)
    ensures |r| == |s|
  {
    if s == [] then []
    else
      assert s == [s[0]] + s[1..];
      Insert(s[0], SortBy(s[1..], key), key)
  }

  /** The elements of `s` whose key is `k`, in their order in `s`. */
  function WithKey<T>(s: seq<T>, key: T -> real, k: real): (r: seq<T>)
    ensures |r| <= |s|
    ensures forall i :: 0 <= i < |r| ==> key(r[i]) == k && r[i] in s
  {
    if s == [] then []
    else (if key(s[0]) == k then [s[0]] else []) + WithKey(s[1..], key, k)
  }

  /** Inserting `x` puts it in front of every element with the same key. */
  lemma {:induction false} InsertStable<T>(x: T, s: seq<T>, key: T -> real, k: real)
    requires SortedBy(s, key)
    ensures WithKey(Insert(x, s, key), key, k) == (if key(x) == k then [x] else []) + WithKey(s, key, k)
  {
    var r := Insert(x, s, key);
    if s == [] || key(x) <= key(s[0]) {
      assert r == [x] + s;
      assert r[1..] == s;
    } else {
      var rest := Insert(x, s[1..], key);
      assert r == [s[0]] + rest && r[1..] == rest;
      InsertStable(x, s[1..], key, k);
    }
  }

  /**
   * The sort is stable: for every key value, the elements with that key come
   * out in the order they went in.
   */
  lemma {:induction false} SortByStableAt<T>(s: seq<T>, key: T -> real, k: real)
    ensures WithKey(SortBy(s, key), key, k) == WithKey(s, key, k)
  {
    if s != [] {
      SortByStableAt(s[1..], key, k);
      InsertStable(s[0], SortBy(s[1..], key), key, k);
    }
  }

  /** Stability for all key values at once. */
  lemma SortByStable<T>(s: seq<T>, key: T -> real)
    ensures forall k :: WithKey(SortBy(s, key), key, k) == WithKey(s, key, k)
  {
    forall k
      ensures WithKey(SortBy(s, key), key, k) == WithKey(s, key, k)
    {
      SortByStableAt(s, key, k);
    }
  }

  /** Sorting neither adds nor drops elements. */
  lemma SortByKeepsElements<T>(s: seq<T>, key: T -> real)
    ensures forall x :: x in SortBy(s, key) <==> x in s
  {
    var r := SortBy(s, key);
    forall x
      ensures x in r <==> x in s
    {
      assert x in r <==> x in multiset(r);
      assert x in s <==> x in multiset(s);
    }
  }

  /** An element of a permutation of `xs` plus `x`, other than `x`, is an element of `xs`. */
  lemma FromOneMore<T>(y: T, rest: seq<T>, xs: seq<T>, x: T)
    requires multiset(rest) == multiset(xs) + multiset{x}
    requires y in rest && y != x
    ensures y in xs
  {
    assert y in multiset(rest);
    assert y in multiset(xs);
  }

  /** A sequence without repeats is still without repeats once inserted into. */
  lemma {:induction false} InsertDistinct<T>(x: T, s: seq<T>, key: T -> real)
    requires SortedBy(s, key)
    requires Distinct(s) && x !in s
    ensures Distinct(Insert(x, s, key))
  {
    if s != [] && key(x) > key(s[0]) {
      assert s == [s[0]] + s[1..];
      InsertDistinct(x, s[1..], key);
      var rest := Insert(x, s[1..], key);
      assert Insert(x, s, key) == [s[0]] + rest;
      forall i | 0 <= i < |rest|
        ensures rest[i] != s[0]
      {
        if rest[i] != x {
          FromOneMore(rest[i], rest, s[1..], x);
        }
      }
    }
  }

  /** Two sequences without repeats and without a common element join into one without repeats. */
  lemma ConcatDistinct<T>(a: seq<T>, b: seq<T>)
    requires Distinct(a) && Distinct(b)
    requires forall i, j :: 0 <= i < |a| && 0 <= j < |b| ==> a[i] != b[j]
    ensures Distinct(a + b)
  {
    var c := a + b;
    forall i, j | 0 <= i < j < |c|
      ensures c[i] != c[j]
    {
      if j < |a| {
        assert c[i] == a[i] && c[j] == a[j];
      } else if i >= |a| {
        assert c[i] == b[i - |a|] && c[j] == b[j - |a|];
      } else {
        assert c[i] == a[i] && c[j] == b[j - |a|];
      }
    }
  }

  /** Sorting a sequence without repeats gives a sequence without repeats. */
  lemma {:induction false} SortByDistinct<T>(s: seq<T>, key: T -> real)
    requires Distinct(s)
    ensures Distinct(SortBy(s, key))
  {
    if s != [] {
      SortByDistinct(s[1..], key);
      SortByKeepsElements(s[1..], key);
      assert s[0] !in s[1..];
      InsertDistinct(s[0], SortBy(s[1..], key), key);
    }
  }

  /**
   * Two strictly sorted sequences with the same elements are equal: a sort
   * result is pinned down as soon as no two of its keys tie.
   */
  lemma {:induction false} StrictlySortedUnique<T>(s: seq<T>, t: seq<T>, key: T -> real)
    requires StrictlySortedBy(s, key) && StrictlySortedBy(t, key)
    requires forall x :: x in s <==> x in t
    ensures s == t
  {
    if s != [] {
      assert s[0] in s;
    }
    if t != [] {
      assert t[0] in t;
    }
    if s != [] && t != [] {
      assert s == [s[0]] + s[1..];
      assert t == [t[0]] + t[1..];
      assert s[0] in t && t[0] in s;
      assert key(s[0]) == key(t[0]);
      forall x
        ensures x in s[1..] <==> x in t[1..]
      {
        if x in s[1..] {
          var k :| 0 <= k < |s[1..]| && s[1..][k] == x;
          assert key(x) > key(s[0]);
          assert s[k + 1] == x && x in t;
          var m :| 0 <= m < |t| && t[m] == x;
          assert m != 0;
          assert t[1..][m - 1] == x;
        }
        if x in t[1..] {
          var k :| 0 <= k < |t[1..]| && t[1..][k] == x;
          assert key(x) > key(t[0]);
          assert t[k + 1] == x && x in s;
          var m :| 0 <= m < |s| && s[m] == x;
          assert m != 0;
          assert s[1..][m - 1] == x;
        }
      }
      StrictlySortedUnique(s[1..], t[1..], key);
    }
  }
}

=== FILE: victim_feeds.dfy ===
/**
 * The two feed parsers of the Victim Finder script. The kill statistics
 * (`kill_att.txt` for offense, `kill_def.txt` for defense) have lines
 * `rank,id,kills`; the village registry (`village.txt`) has lines
 * `id,name,x,y,player,...`. Number parsing is the caller's `parseInt`
 * (`None` standing for NaN).
 */
module VictimFeeds {
  import opened Js
  import opened World

  // ---------------------------------------------------------------------
  // Kill statistics
  // ---------------------------------------------------------------------

  /** What one kill-feed line contributes: the id in field 1 and `parseInt(field 2) || 0`. */
  function KillRecord(line: string, parseInt: string -> Option<int>): Option<(string, int)>
  {
    var parts := Split(line, ',');
    if |parts| >= 3 then Some((parts[1], OrElse(parseInt(parts[2]), 0))) else None
  }

  /** The `forEach` over the lines: each record is stored under its id, replacing any earlier one. */
  function ParseKillLines(lines: seq<string>, parseInt: string -> Option<int>): map<string, int>
  {
    if lines == [] then map[]
    else
      var data := ParseKillLines(lines[..|lines| - 1], parseInt);
      match KillRecord(lines[|lines| - 1], parseInt)
      case Some((id, kills)) => data[id := kills]
      case None => data
  }

  /** `parseKillData(text)`. */
  function ParseKillData(text: string, parseInt: string -> Option<int>): map<string, int>
  {
    ParseKillLines(Lines(text), parseInt)
  }

  /** Line `i` is a kill record (at least three fields) for `id`. */
  ghost predicate RecordsId(lines: seq<string>, parseInt: string -> Option<int>, i: int, id: string)
  {
    && 0 <= i < |lines|
    && KillRecord(lines[i], parseInt).Some?
    && KillRecord(lines[i], parseInt).value.0 == id
  }

  /** Line `i` is the last kill record for `id`. */
  ghost predicate LastRecordOf(lines: seq<string>, parseInt: string -> Option<int>, i: int, id: string)
  {
    && RecordsId(lines, parseInt, i, id)
    && forall j :: i < j < |lines| ==> !RecordsId(lines, parseInt, j, id)
  }

  /** The records of the lines before the last one are the records of the prefix. */
  lemma RecordsOfPrefix(lines: seq<string>, parseInt: string -> Option<int>, id: string)
    requires lines != []
    ensures forall i :: 0 <= i < |lines| - 1 ==>
      (RecordsId(lines, parseInt, i, id) <==> RecordsId(lines[..|lines| - 1], parseInt, i, id))
  {
    forall i | 0 <= i < |lines| - 1
      ensures RecordsId(lines, parseInt, i, id) <==> RecordsId(lines[..|lines| - 1], parseInt, i, id)
    {
      assert lines[i] == lines[..|lines| - 1][i];
    }
  }

  /** An id is in the parsed kill data exactly when some line with at least three fields names it. */
  lemma {:induction false} KillDataKeys(lines: seq<string>, parseInt: string -> Option<int>, id: string)
    ensures id in ParseKillLines(lines, parseInt) <==> exists i :: RecordsId(lines, parseInt, i, id)
  {
    if lines != [] {
      var n := |lines|;
      var init := lines[..n - 1];
      KillDataKeys(init, parseInt, id);
      RecordsOfPrefix(lines, parseInt, id);
      var data0 := ParseKillLines(init, parseInt);
      var last := KillRecord(lines[n - 1], parseInt);
      if last.Some? && last.value.0 == id {
        assert RecordsId(lines, parseInt, n - 1, id);
      } else {
        assert id in ParseKillLines(lines, parseInt) <==> id in data0;
        if exists i :: RecordsId(lines, parseInt, i, id) {
          var i :| RecordsId(lines, parseInt, i, id);
          assert i < n - 1;
          assert RecordsId(init, parseInt, i, id);
        }
        if id in data0 {
          var i :| RecordsId(init, parseInt, i, id);
          assert RecordsId(lines, parseInt, i, id);
        }
      }
    }
  }

  /**
   * The value stored for an id is the count on the LAST line with at least
   * three fields that names it: a later line overwrites an earlier one.
   */
  lemma {:induction false} KillDataLastLineWins(lines: seq<string>, parseInt: string -> Option<int>, id: string)
    requires id in ParseKillLines(lines, parseInt)
    ensures exists i :: (LastRecordOf(lines, parseInt, i, id)
      && ParseKillLines(lines, parseInt)[id] == KillRecord(lines[i], parseInt).value.1)
  {
    var n := |lines|;
    var init := lines[..n - 1];
    var data0 := ParseKillLines(init, parseInt);
    var last := KillRecord(lines[n - 1], parseInt);
    if last.Some? && last.value.0 == id {
      assert ParseKillLines(lines, parseInt)[id] == last.value.1;
      assert LastRecordOf(lines, parseInt, n - 1, id);
    } else {
      assert id in data0 && ParseKillLines(lines, parseInt)[id] == data0[id];
      KillDataLastLineWins(init, parseInt, id);
      RecordsOfPrefix(lines, parseInt, id);
      var i :| LastRecordOf(init, parseInt, i, id) && data0[id] == KillRecord(init[i], parseInt).value.1;
      assert lines[i] == init[i];
      assert !RecordsId(lines, parseInt, n - 1, id);
      assert LastRecordOf(lines, parseInt, i, id);
    }
  }

  // ---------------------------------------------------------------------
  // Village registry
  // ---------------------------------------------------------------------

  /**
   * What one village-feed line contributes: with at least five fields and an
   * owner (field 4) that is neither empty nor `"0"`, the owner and the
   * position `(parseInt(field 2) || 0, parseInt(field 3) || 0)`.
   */
  function VillageRecord(line: string, parseInt: string -> Option<int>): (r: Option<(string, Coord)>)
    ensures r.Some? ==> r.value.0 != "" && r.value.0 != "0"
  {
    var parts := Split(line, ',');
    if |parts| >= 5 && parts[4] != "" && parts[4] != "0" then
      Some((parts[4], Coord(OrElse(parseInt(parts[2]), 0), OrElse(parseInt(parts[3]), 0))))
    else
      None
  }

  /** A record appends its position to its owner's list, creating the list when it is missing; no record changes nothing. */
  function Push(data: map<string, seq<Coord>>, rec: Option<(string, Coord)>): map<string, seq<Coord>>
  {
    match rec
    case Some((owner, c)) => data[owner := (if owner in data then data[owner] else []) + [c]]
    case None => data
  }

  /** The `forEach` over the lines: each owned village is pushed onto its owner's list. */
  function ParseVillageLines(lines: seq<string>, parseInt: string -> Option<int>): map<string, seq<Coord>>
  {
    if lines == [] then map[]
    else Push(ParseVillageLines(lines[..|lines| - 1], parseInt), VillageRecord(lines[|lines| - 1], parseInt))
  }

  /** `parseVillageData(text)`. */
  function ParseVillageData(text: string, parseInt: string -> Option<int>): map<string, seq<Coord>>
  {
    ParseVillageLines(Lines(text), parseInt)
  }

  /** The position a record contributes to `owner`'s list, if any. */
  function Contribution(rec: Option<(string, Coord)>, owner: string): seq<Coord>
  {
    match rec
    case Some((o, c)) => if o == owner then [c] else []
    case None => []
  }

  /** The position a line contributes to `owner`'s list, if any. */
  function CoordFor(line: string, parseInt: string -> Option<int>, owner: string): seq<Coord>
  {
    Contribution(VillageRecord(line, parseInt), owner)
  }

  /** Reference definition: the positions of `owner`'s villages, in feed order. */
  function CoordsOf(lines: seq<string>, parseInt: string -> Option<int>, owner: string): seq<Coord>
  {
    if lines == [] then [] else CoordFor(lines[0], parseInt, owner) + CoordsOf(lines[1..], parseInt, owner)
  }

  lemma {:induction false} CoordsOfAppend(a: seq<string>, b: seq<string>, parseInt: string -> Option<int>, owner: string)
    ensures CoordsOf(a + b, parseInt, owner) == CoordsOf(a, parseInt, owner) + CoordsOf(b, parseInt, owner)
  {
    if a == [] {
      assert a + b == b;
    } else {
      assert (a + b)[0] == a[0];
      assert (a + b)[1..] == a[1..] + b;
      CoordsOfAppend(a[1..], b, parseInt, owner);
    }
  }

  /**
   * The parsed village data groups positions by owner: an owner is present
   * exactly when some owned line names it, its list holds the positions of
   * those lines in input order, and no key is empty or `"0"`.
   */
  lemma {:induction false} VillageDataGroupsByOwner(lines: seq<string>, parseInt: string -> Option<int>, owner: string)
    ensures owner in ParseVillageLines(lines, parseInt) <==> CoordsOf(lines, parseInt, owner) != []
    ensures owner in ParseVillageLines(lines, parseInt) ==>
      ParseVillageLines(lines, parseInt)[owner] == CoordsOf(lines, parseInt, owner)
    ensures owner in ParseVillageLines(lines, parseInt) ==> owner != "" && owner != "0"
  {
    if lines != [] {
      var n := |lines|;
      var init := lines[..n - 1];
      VillageDataGroupsByOwner(init, parseInt, owner);
      assert lines == init + [lines[n - 1]];
      CoordsOfAppend(init, [lines[n - 1]], parseInt, owner);
      assert CoordsOf([lines[n - 1]], parseInt, owner) == CoordFor(lines[n - 1], parseInt, owner);
      PushGroups(ParseVillageLines(init, parseInt), VillageRecord(lines[n - 1], parseInt), owner, CoordsOf(init, parseInt, owner));
    }
  }

  /** One push keeps the grouping: `owner`'s list grows by what the record contributes to it. */
  lemma PushGroups(data: map<string, seq<Coord>>, rec: Option<(string, Coord)>, owner: string, prev: seq<Coord>)
    requires owner in data <==> prev != []
    requires owner in data ==> data[owner] == prev && owner != "" && owner != "0"
    requires rec.Some? ==> rec.value.0 != "" && rec.value.0 != "0"
    ensures owner in Push(data, rec) <==> prev + Contribution(rec, owner) != []
    ensures owner in Push(data, rec) ==> Push(data, rec)[owner] == prev + Contribution(rec, owner)
    ensures owner in Push(data, rec) ==> owner != "" && owner != "0"
  {
    if rec.Some? && rec.value.0 == owner {
      assert Contribution(rec, owner) == [rec.value.1];
    }
  }

}

=== FILE: victim_match.dfy ===
/**
 * The correlation step of the Victim Finder script: positive deltas between
 * two kill-count snapshots (`calculateDeltas`), the square range filter of
 * the scan, and the all-pairs tolerance join of offense gains against
 * defense gains with its confidence tiers (`findMatches`).
 *
 * The script's ratios are JavaScript doubles; here they are exact reals.
 */
module VictimMatch {
  import opened Js
  import opened World
  import opened VictimRange
  import Sorting

  // ---------------------------------------------------------------------
  // calculateDeltas
  // ---------------------------------------------------------------------

  /** The growth of an id's counter, a missing previous count reading as 0. */
  function Gain(current: map<string, int>, previous: map<string, int>, id: string): int
    requires id in current
  {
    current[id] - GetOrZero(previous, id)
  }

  /**
   * `calculateDeltas(currentData, previousData)`: walks the current snapshot
   * and keeps every id whose count grew, with the growth as its value.
   */
  method CalculateDeltas(current: map<string, int>, previous: map<string, int>) returns (deltas: map<string, int>)
    ensures forall id :: id in deltas <==> id in current && Gain(current, previous, id) > 0
    ensures forall id :: id in deltas ==> deltas[id] == Gain(current, previous, id) && deltas[id] > 0
    ensures forall id :: id in deltas ==> GetOrZero(previous, id) + deltas[id] == current[id]
    ensures forall id :: id in previous && id !in current ==> id !in deltas
    ensures deltas == DeltasOf(current, previous)
  {
    deltas := map[];
    var todo := current.Keys;
    while todo != {}
      invariant todo <= current.Keys
      invariant forall id :: id in deltas <==> id in current && id !in todo && Gain(current, previous, id) > 0
      invariant forall id :: id in deltas ==> deltas[id] == Gain(current, previous, id)
      decreases todo
    {
      var id :| id in todo;
      var delta := current[id] - GetOrZero(previous, id);
      if delta > 0 {
        deltas := deltas[id := delta];
      }
      todo := todo - {id};
    }
  }

  /** The positive growth of every current id, as one map: what `CalculateDeltas` computes. */
  ghost function DeltasOf(current: map<string, int>, previous: map<string, int>): map<string, int>
  {
    map id | id in current && Gain(current, previous, id) > 0 :: Gain(current, previous, id)
  }

  // ---------------------------------------------------------------------
  // Range filter of runScan
  // ---------------------------------------------------------------------

  /**
   * The loops of `runScan` that keep a delta only for players with a village
   * in the square around the scanning player's centre.
   */
  method FilterInRange(deltas: map<string, int>, villageData: map<string, seq<Coord>>, center: Coord, radius: int)
    returns (filtered: map<string, int>)
    ensures forall id :: id in filtered <==> id in deltas && IsInRange(VillagesOf(villageData, id), center, radius)
    ensures forall id :: id in filtered ==> filtered[id] == deltas[id]
    ensures forall id :: id in filtered ==> id in villageData && villageData[id] != []
    ensures filtered == InRangeOf(deltas, villageData, center, radius)
  {
    filtered := map[];
    var todo := deltas.Keys;
    while todo != {}
      invariant todo <= deltas.Keys
      invariant forall id :: id in filtered <==>
        id in deltas && id !in todo && IsInRange(VillagesOf(villageData, id), center, radius)
      invariant forall id :: id in filtered ==> filtered[id] == deltas[id]
      decreases todo
    {
      var id :| id in todo;
      if IsInRange(VillagesOf(villageData, id), center, radius) {
        filtered := filtered[id := deltas[id]];
      }
      todo := todo - {id};
    }
  }

  /** The deltas of the players in range, as one map: what `FilterInRange` computes. */
  ghost function InRangeOf(deltas: map<string, int>, villageData: map<string, seq<Coord>>, center: Coord, radius: int): map<string, int>
  {
    map id | id in deltas && IsInRange(VillagesOf(villageData, id), center, radius) :: deltas[id]
  }

  // ---------------------------------------------------------------------
  // findMatches
  // ---------------------------------------------------------------------

  /** `findMatches`' default `tolerance`. */
  const DefaultTolerance: real := 0.25

  datatype Confidence = High | Medium | Low

  /** One correlated pair, as pushed onto `matches`; `percentDiff` is the ratio times 100. */
  datatype Match = Match(
    attackerId: string, attackerName: string, odaGain: int,
    defenderId: string, defenderName: string, oddGain: int,
    percentDiff: real, confidence: Confidence)

  /**
   * `diff / avg` with `avg = (a + b) / 2`. When `a + b` is 0 the script
   * divides by zero (NaN or Infinity), which no tolerance accepts, so the
   * ratio is only defined otherwise.
   */
  function Ratio(a: int, b: int): real
    requires a + b != 0
  {
    (Abs(a - b) as real) / ((a + b) as real / 2.0)
  }

  /** `percentDiff <= tolerance`, with NaN and Infinity rejected. */
  predicate Accepts(a: int, b: int, tolerance: real)
  {
    a + b != 0 && Ratio(a, b) <= tolerance
  }

  /** The tiers: below 5% High, below 15% Medium, Low otherwise. */
  function Tier(ratio: real): Confidence
  {
    if ratio < 0.05 then High else if ratio < 0.15 then Medium else Low
  }

  /** The player's name when it is known and non-empty, otherwise `Player ` followed by the id. */
  function DisplayName(players: map<string, string>, id: string): string
  {
    if id in players && players[id] != "" then players[id] else "Player " + id
  }

  function MakeMatch(players: map<string, string>, attackerId: string, odaGain: int, defenderId: string, oddGain: int): Match
    requires odaGain + oddGain != 0
  {
    var ratio := Ratio(odaGain, oddGain);
    Match(attackerId, DisplayName(players, attackerId), odaGain,
          defenderId, DisplayName(players, defenderId), oddGain,
          ratio * 100.0, Tier(ratio))
  }

  /**
   * `m` is a pair the inner loop accepts for the offense entry `(a, odaGain)`:
   * a different defender of `odd`, gains within tolerance, and every other
   * field computed from those two entries.
   */
  ghost predicate RowAccepts(a: string, odaGain: int, odd: map<string, int>, players: map<string, string>, tolerance: real, m: Match)
  {
    && m.attackerId == a
    && m.defenderId in odd
    && a != m.defenderId
    && Accepts(odaGain, odd[m.defenderId], tolerance)
    && m == MakeMatch(players, a, odaGain, m.defenderId, odd[m.defenderId])
  }

  /** `m` is one of the pairs the join accepts: its attacker is an entry of `oda` and the inner loop accepts it. */
  ghost predicate IsAccepted(oda: map<string, int>, odd: map<string, int>, players: map<string, string>, tolerance: real, m: Match)
  {
    m.attackerId in oda && RowAccepts(m.attackerId, oda[m.attackerId], odd, players, tolerance, m)
  }

  function PercentDiff(m: Match): real
  {
    m.percentDiff
  }

  /** No (attacker, defender) pair occurs twice. */
  ghost predicate DistinctPairs(ms: seq<Match>)
  {
    forall i, j :: 0 <= i < j < |ms| ==>
      ms[i].attackerId != ms[j].attackerId || ms[i].defenderId != ms[j].defenderId
  }

  /** The inner loop of `findMatches`: one offense entry against every defense entry. */
  method MatchAttacker(a: string, odaGain: int, odd: map<string, int>, players: map<string, string>, tolerance: real)
    returns (row: seq<Match>)
    ensures forall m :: m in row <==> RowAccepts(a, odaGain, odd, players, tolerance, m)
    ensures forall i, j :: 0 <= i < j < |row| ==> row[i].defenderId != row[j].defenderId
    ensures |row| <= |odd|
  {
    row := [];
    var defenders := odd.Keys;
    while defenders != {}
      invariant defenders <= odd.Keys
      invariant forall m :: m in row <==> RowAccepts(a, odaGain, odd, players, tolerance, m) && m.defenderId !in defenders
      invariant forall i, j :: 0 <= i < j < |row| ==> row[i].defenderId != row[j].defenderId
      invariant |row| + |defenders| <= |odd.Keys|
      decreases defenders
    {
      var d :| d in defenders;
      if a != d && Accepts(odaGain, odd[d], tolerance) {
        row := row + [MakeMatch(players, a, odaGain, d, odd[d])];
      }
      defenders := defenders - {d};
    }
  }

  /**
   * `findMatches(odaDeltas, oddDeltas, players, tolerance)`: every pair of an
   * offense entry and a different defense entry whose gains are within
   * tolerance, each pair once, sorted by ascending `percentDiff`.
   */
  method FindMatches(oda: map<string, int>, odd: map<string, int>, players: map<string, string>, tolerance: real)
    returns (matches: seq<Match>)
    ensures forall m :: m in matches <==> IsAccepted(oda, odd, players, tolerance, m)
    ensures forall i :: 0 <= i < |matches| ==> matches[i].attackerId != matches[i].defenderId
    ensures DistinctPairs(matches)
    ensures Sorting.SortedBy(matches, PercentDiff)
    ensures |matches| <= |oda| * |odd|
  {
    var found: seq<Match> := [];
    var attackers := oda.Keys;
    var done := 0;
    while attackers != {}
      invariant attackers <= oda.Keys
      invariant forall m :: m in found <==> IsAccepted(oda, odd, players, tolerance, m) && m.attackerId !in attackers
      invariant DistinctPairs(found)
      invariant done + |attackers| == |oda.Keys|
      invariant |found| <= done * |odd|
      decreases attackers
    {
      var a :| a in attackers;
      var row := MatchAttacker(a, oda[a], odd, players, tolerance);
      AppendRow(oda, odd, players, tolerance, attackers, a, found, row);
      RowsWithinBound(|found|, |row|, done, |odd|);
      found := found + row;
      attackers := attackers - {a};
      done := done + 1;
    }
    assert |oda| == |oda.Keys|;
    matches := Sorting.SortBy(found, PercentDiff);
    SortAccepted(oda, odd, players, tolerance, found);
  }

  /** One pass of the outer loop: the attacker's row joins the matches found so far. */
  lemma AppendRow(oda: map<string, int>, odd: map<string, int>, players: map<string, string>, tolerance: real,
                  attackers: set<string>, a: string, found: seq<Match>, row: seq<Match>)
    requires a in attackers && attackers <= oda.Keys
    requires forall m :: m in found <==> IsAccepted(oda, odd, players, tolerance, m) && m.attackerId !in attackers
    requires DistinctPairs(found)
    requires forall m :: m in row <==> RowAccepts(a, oda[a], odd, players, tolerance, m)
    requires forall i, j :: 0 <= i < j < |row| ==> row[i].defenderId != row[j].defenderId
    ensures forall m :: m in found + row <==> IsAccepted(oda, odd, players, tolerance, m) && m.attackerId !in attackers - {a}
    ensures DistinctPairs(found + row)
  {
    var all := found + row;
    forall m
      ensures m in all <==> IsAccepted(oda, odd, players, tolerance, m) && m.attackerId !in attackers - {a}
    {
      assert m in all <==> m in found || m in row;
    }
    forall i, j | 0 <= i < j < |all|
      ensures all[i].attackerId != all[j].attackerId || all[i].defenderId != all[j].defenderId
    {
      if j < |found| {
        assert all[i] == found[i] && all[j] == found[j];
      } else if i >= |found| {
        assert all[i] == row[i - |found|] && all[j] == row[j - |found|];
      } else {
        assert all[i] == found[i] && found[i] in found;
        assert all[j] == row[j - |found|] && all[j] in row;
      }
    }
  }

  /** Sorting the found matches keeps exactly the same matches, each pair once. */
  lemma SortAccepted(oda: map<string, int>, odd: map<string, int>, players: map<string, string>, tolerance: real, found: seq<Match>)
    requires forall m :: m in found ==> IsAccepted(oda, odd, players, tolerance, m)
    requires DistinctPairs(found)
    ensures forall m :: m in Sorting.SortBy(found, PercentDiff) <==> m in found
    ensures DistinctPairs(Sorting.SortBy(found, PercentDiff))
    ensures forall i :: 0 <= i < |Sorting.SortBy(found, PercentDiff)| ==>
      Sorting.SortBy(found, PercentDiff)[i].attackerId != Sorting.SortBy(found, PercentDiff)[i].defenderId
  {
    var matches := Sorting.SortBy(found, PercentDiff);
    Sorting.SortByKeepsElements(found, PercentDiff);
    AcceptedDistinct(found);
    Sorting.SortByDistinct(found, PercentDiff);
    DistinctAccepted(oda, odd, players, tolerance, matches);
    assert forall i :: 0 <= i < |matches| ==> matches[i] in found;
  }

  /** One more row of at most `width` matches keeps the count within `width` per attacker. */
  lemma RowsWithinBound(found: nat, row: nat, done: nat, width: nat)
    requires found <= done * width && row <= width
    ensures found + row <= (done + 1) * width
  {
    assert (done + 1) * width == done * width + width;
  }

  /** Pairs that differ make different matches. */
  lemma AcceptedDistinct(ms: seq<Match>)
    requires DistinctPairs(ms)
    ensures Sorting.Distinct(ms)
  {
  }

  /** Accepted matches are determined by their pair, so different matches have different pairs. */
  lemma DistinctAccepted(oda: map<string, int>, odd: map<string, int>, players: map<string, string>, tolerance: real, ms: seq<Match>)
    requires forall i :: 0 <= i < |ms| ==> IsAccepted(oda, odd, players, tolerance, ms[i])
    requires Sorting.Distinct(ms)
    ensures DistinctPairs(ms)
  {
  }

  // ---------------------------------------------------------------------
  // Properties of the join
  // ---------------------------------------------------------------------

  /** With a positive sum of gains the ratio test is `2·|a−b| <= tolerance·(a+b)`. */
  lemma AcceptsCrossMultiplied(a: int, b: int, tolerance: real)
    requires a + b > 0
    ensures Accepts(a, b, tolerance) <==> 2.0 * (Abs(a - b) as real) <= tolerance * ((a + b) as real)
  {
    var d := Abs(a - b) as real;
    var sum := (a + b) as real;
    assert Ratio(a, b) == 2.0 * d / sum;
    assert Ratio(a, b) * sum == 2.0 * d;
    if Ratio(a, b) <= tolerance {
      assert Ratio(a, b) * sum <= tolerance * sum;
    } else {
      assert Ratio(a, b) * sum > tolerance * sum;
    }
  }

  /** The default tolerance of 25% in whole numbers: `8·|a−b| <= a+b`, boundary included. */
  lemma DefaultToleranceInIntegers(a: int, b: int)
    requires a + b > 0
    ensures Accepts(a, b, DefaultTolerance) <==> 8 * Abs(a - b) <= a + b
  {
    AcceptsCrossMultiplied(a, b, DefaultTolerance);
  }

  /**
   * The tiers in whole numbers: High when `40·|a−b| < a+b`, Medium when in
   * addition to that failing `40·|a−b| < 3·(a+b)`, Low otherwise.
   */
  lemma TiersInIntegers(a: int, b: int)
    requires a + b > 0
    ensures Tier(Ratio(a, b)) == High <==> 40 * Abs(a - b) < a + b
    ensures Tier(Ratio(a, b)) == Medium <==> a + b <= 40 * Abs(a - b) < 3 * (a + b)
    ensures Tier(Ratio(a, b)) == Low <==> 3 * (a + b) <= 40 * Abs(a - b)
  {
    RatioBelow(a, b, 0.05);
    RatioBelow(a, b, 0.15);
  }

  /** `ratio < k` cross-multiplied: `2·|a−b| < k·(a+b)`. */
  lemma RatioBelow(a: int, b: int, k: real)
    requires a + b > 0
    ensures Ratio(a, b) < k <==> 2.0 * (Abs(a - b) as real) < k * ((a + b) as real)
  {
    var d := Abs(a - b) as real;
    var sum := (a + b) as real;
    assert Ratio(a, b) == 2.0 * d / sum;
    assert Ratio(a, b) * sum == 2.0 * d;
    if Ratio(a, b) < k {
      assert Ratio(a, b) * sum < k * sum;
    } else {
      assert Ratio(a, b) * sum >= k * sum;
    }
  }

  /**
   * Every accepted match has the confidence its stored percentage implies
   * (High below 5, Medium from 5 to below 15, Low from 15), stays within the
   * tolerance, and carries the two gains it was computed from.
   */
  lemma AcceptedMatchFields(oda: map<string, int>, odd: map<string, int>, players: map<string, string>, tolerance: real, m: Match)
    requires IsAccepted(oda, odd, players, tolerance, m)
    ensures m.confidence == High <==> m.percentDiff < 5.0
    ensures m.confidence == Medium <==> 5.0 <= m.percentDiff < 15.0
    ensures m.confidence == Low <==> 15.0 <= m.percentDiff
    ensures m.percentDiff <= tolerance * 100.0
    ensures m.odaGain == oda[m.attackerId] && m.oddGain == odd[m.defenderId]
  {
  }
}

=== FILE: victim_range.dfy ===
/**
 * The geography of the Victim Finder script: the scanning player's centre
 * (`getPlayerCenter`) and the square range test (`isInRange`) applied to
 * every player with a positive delta.
 */
module VictimRange {
  import opened Js
  import opened World

  /** The centre used when the player has no villages, and the fallback for each coordinate. */
  const DefaultCenter := Coord(500, 500)

  /** `RANGE_RADIUS` when the user has not set it. */
  const DefaultRangeRadius := 50

  function Abs(n: int): nat
  {
    if n < 0 then -n else n
  }

  // ---------------------------------------------------------------------
  // isInRange
  // ---------------------------------------------------------------------

  /** `v` lies in the square of half-width `radius` around `center`, edges included. */
  predicate InBox(v: Coord, center: Coord, radius: int)
  {
    Abs(v.x - center.x) <= radius && Abs(v.y - center.y) <= radius
  }

  /** Whether some village of the list lies in the square. */
  function AnyInBox(vs: seq<Coord>, center: Coord, radius: int): (r: bool)
    ensures r <==> exists i :: 0 <= i < |vs| && InBox(vs[i], center, radius)
  {
    if vs == [] then false
    else if InBox(vs[0], center, radius) then true
    else
      assert forall i :: 1 <= i < |vs| ==> vs[i] == vs[1..][i - 1];
      AnyInBox(vs[1..], center, radius)
  }

  /** `villageData[playerId]`: `None` when the player owns no village in the feed. */
  function VillagesOf(villageData: map<string, seq<Coord>>, id: string): Option<seq<Coord>>
  {
    if id in villageData then Some(villageData[id]) else None
  }

  /**
   * `isInRange(playerVillages, center, radius)`: false for a missing or empty
   * list, otherwise true exactly when SOME village lies in the square around
   * `center` (not a distance from a centroid).
   */
  function IsInRange(villages: Option<seq<Coord>>, center: Coord, radius: int): (r: bool)
    ensures villages.None? ==> !r
    ensures villages == Some([]) ==> !r
    ensures r <==> villages.Some? && exists i :: 0 <= i < |villages.value| && InBox(villages.value[i], center, radius)
  {
    match villages
    case None => false
    case Some(vs) => if |vs| == 0 then false else AnyInBox(vs, center, radius)
  }

  // ---------------------------------------------------------------------
  // getPlayerCenter
  // ---------------------------------------------------------------------

  /**
   * One own village's position from its `"x|y"` text: a missing text counts
   * as `[500, 500]`, and each part is `parseInt(part) || 500`, so a part that
   * is absent, not a number, or 0 becomes 500.
   */
  function OwnCoord(coord: string, parseInt: string -> Option<int>): Coord
  {
    if coord == "" then DefaultCenter
    else
      var parts := Split(coord, '|');
      Coord(OrElse(parseInt(parts[0]), 500), if |parts| >= 2 then OrElse(parseInt(parts[1]), 500) else 500)
  }

  function SumX(coords: seq<string>, parseInt: string -> Option<int>): int
  {
    if coords == [] then 0 else SumX(coords[..|coords| - 1], parseInt) + OwnCoord(coords[|coords| - 1], parseInt).x
  }

  function SumY(coords: seq<string>, parseInt: string -> Option<int>): int
  {
    if coords == [] then 0 else SumY(coords[..|coords| - 1], parseInt) + OwnCoord(coords[|coords| - 1], parseInt).y
  }

  /**
   * `Math.round(sum / n)` for whole numbers: the nearest integer to the
   * quotient, halves rounded up.
   */
  function RoundHalfUp(sum: int, n: int): (r: int)
    requires n > 0
    ensures (2 * r - 1) * n <= 2 * sum < (2 * r + 1) * n
  {
    var q := (2 * sum + n) / (2 * n);
    var rem := (2 * sum + n) % (2 * n);
    assert 2 * n * q + rem == 2 * sum + n && 0 <= rem < 2 * n;
    assert (2 * q - 1) * n == 2 * n * q - n;
    assert (2 * q + 1) * n == 2 * n * q + n;
    q
  }

  /**
   * `getPlayerCenter()` over the `coord` texts of the player's own villages:
   * (500, 500) without villages, otherwise the mean position with each
   * coordinate rounded to the nearest integer, halves up.
   */
  function PlayerCenter(coords: seq<string>, parseInt: string -> Option<int>): (c: Coord)
    ensures |coords| == 0 ==> c == DefaultCenter
    ensures |coords| > 0 ==> (2 * c.x - 1) * |coords| <= 2 * SumX(coords, parseInt) < (2 * c.x + 1) * |coords|
    ensures |coords| > 0 ==> (2 * c.y - 1) * |coords| <= 2 * SumY(coords, parseInt) < (2 * c.y + 1) * |coords|
  {
    if |coords| == 0 then DefaultCenter
    else Coord(RoundHalfUp(SumX(coords, parseInt), |coords|), RoundHalfUp(SumY(coords, parseInt), |coords|))
  }
}

=== FILE: victim_scan.dfy ===
/**
 * One scan of the Victim Finder script (`runScan`) with the snapshot store
 * as an explicit value, and its demo mode on the built-in demo data
 * (`generateDemoData`).
 */
module VictimScan {
  import opened Js
  import opened World
  import opened VictimRange
  import opened VictimMatch
  import Sorting

  /** What the browser store keeps between scans; a missing entry reads as `{}`. */
  datatype Snapshots = Snapshots(oda: map<string, int>, odd: map<string, int>, lastScan: Option<int>)

  /** The outcome of a scan: a failed fetch writes nothing; otherwise the new store and the matches. */
  datatype ScanResult =
    | FetchFailed
    | Scanned(isFirstScan: bool, matches: seq<Match>, stored: Snapshots)

  // ---------------------------------------------------------------------
  // Demo data
  // ---------------------------------------------------------------------

  const DemoOda: map<string, int> := map[
    "12345" := 287500, "23456" := 156000, "34567" := 423000, "45678" := 89500]

  const DemoOdd: map<string, int> := map[
    "55555" := 285000, "66666" := 160000, "77777" := 420000, "88888" := 95000, "99999" := 50000]

  const DemoPlayers: map<string, string> := map[
    "12345" := "DragonSlayer", "23456" := "NightRaider", "34567" := "WarLord99",
    "45678" := "ShadowKing", "55555" := "IronFist", "66666" := "StormBringer",
    "77777" := "DeathDealer", "88888" := "BloodHunter", "99999" := "CrimsonTide"]

  /** The four pairs the demo data is annotated with, closest gains first. */
  function DemoExpected(): seq<Match>
  {
    [ MakeMatch(DemoPlayers, "34567", 423000, "77777", 420000),
      MakeMatch(DemoPlayers, "12345", 287500, "55555", 285000),
      MakeMatch(DemoPlayers, "23456", 156000, "66666", 160000),
      MakeMatch(DemoPlayers, "45678", 89500, "88888", 95000) ]
  }

  /** Of the twenty demo pairs, exactly the four annotated ones are within 25%. */
  lemma DemoPairsAccepted(a: string, d: string)
    requires a in DemoOda && d in DemoOdd
    ensures Accepts(DemoOda[a], DemoOdd[d], DefaultTolerance) <==>
      (a, d) in {("12345", "55555"), ("23456", "66666"), ("34567", "77777"), ("45678", "88888")}
  {
    DefaultToleranceInIntegers(DemoOda[a], DemoOdd[d]);
  }

  /** An accepted demo pair is one of the annotated matches. */
  lemma DemoAcceptedIsExpected(m: Match)
    requires IsAccepted(DemoOda, DemoOdd, DemoPlayers, DefaultTolerance, m)
    ensures m in DemoExpected()
  {
    DemoPairsAccepted(m.attackerId, m.defenderId);
  }

  /** Each annotated match is accepted. */
  lemma DemoExpectedIsAccepted(k: nat)
    requires k < |DemoExpected()|
    ensures IsAccepted(DemoOda, DemoOdd, DemoPlayers, DefaultTolerance, DemoExpected()[k])
  {
    var m := DemoExpected()[k];
    DemoPairsAccepted(m.attackerId, m.defenderId);
  }

  /** The annotated matches: closest first, three High and one Medium, `99999` not among them. */
  lemma DemoExpectedShape()
    ensures forall m :: m in DemoExpected() ==> m.defenderId != "99999"
    ensures Sorting.StrictlySortedBy(DemoExpected(), PercentDiff)
    ensures [DemoExpected()[0].confidence, DemoExpected()[1].confidence,
             DemoExpected()[2].confidence, DemoExpected()[3].confidence] == [High, High, High, Medium]
  {
    TiersInIntegers(423000, 420000);
    TiersInIntegers(287500, 285000);
    TiersInIntegers(156000, 160000);
    TiersInIntegers(89500, 95000);
  }

  /**
   * With the default tolerance the demo data matches exactly the four
   * annotated pairs (`99999` stays unmatched): three High and one Medium.
   */
  lemma DemoMatchesAreAnnotatedPairs()
    ensures forall m :: IsAccepted(DemoOda, DemoOdd, DemoPlayers, DefaultTolerance, m) <==> m in DemoExpected()
    ensures forall m :: m in DemoExpected() ==> m.defenderId != "99999"
    ensures Sorting.StrictlySortedBy(DemoExpected(), PercentDiff)
    ensures [DemoExpected()[0].confidence, DemoExpected()[1].confidence,
             DemoExpected()[2].confidence, DemoExpected()[3].confidence] == [High, High, High, Medium]
  {
    var e := DemoExpected();
    forall m
      ensures IsAccepted(DemoOda, DemoOdd, DemoPlayers, DefaultTolerance, m) <==> m in e
    {
      if IsAccepted(DemoOda, DemoOdd, DemoPlayers, DefaultTolerance, m) {
        DemoAcceptedIsExpected(m);
      }
      if m in e {
        var k :| 0 <= k < |e| && e[k] == m;
        DemoExpectedIsAccepted(k);
      }
    }
    DemoExpectedShape();
  }

  /**
   * A list of demo matches that is sorted and holds each accepted pair once
   * is exactly the annotated list, in that order.
   */
  lemma DemoOrderIsFixed(matches: seq<Match>)
    requires forall m :: m in matches <==> IsAccepted(DemoOda, DemoOdd, DemoPlayers, DefaultTolerance, m)
    requires DistinctPairs(matches)
    requires Sorting.SortedBy(matches, PercentDiff)
    ensures matches == DemoExpected()
  {
    DemoMatchesAreAnnotatedPairs();
    var e := DemoExpected();
    AcceptedDistinct(matches);
    forall i, j | 0 <= i < j < |matches|
      ensures PercentDiff(matches[i]) < PercentDiff(matches[j])
    {
      assert matches[i] in e && matches[j] in e;
      assert matches[i] != matches[j];
    }
    Sorting.StrictlySortedUnique(matches, e, PercentDiff);
  }

  // ---------------------------------------------------------------------
  // runScan
  // ---------------------------------------------------------------------

  /**
   * `runScan(demoMode)`. In demo mode the demo data is matched and nothing is
   * stored. Otherwise a missing kill feed ends the scan before anything is
   * stored; a scan is the first one exactly when no offense snapshot is
   * stored; both delta sets are range-filtered around the player's centre;
   * matching is skipped on a first scan; and the raw current feeds (not the
   * deltas) become the stored snapshots, stamped with `now`. `radius` is the
   * user's setting, `DefaultRangeRadius` when unset. A failed player or village
   * fetch arrives as an empty `players` or `villageData` map.
   */
  method RunScan(demo: bool, odaData: Option<map<string, int>>, oddData: Option<map<string, int>>,
                 players: map<string, string>, villageData: map<string, seq<Coord>>,
                 ownCoords: seq<string>, parseInt: string -> Option<int>, radius: int,
                 stored: Snapshots, now: int)
    returns (r: ScanResult)
    ensures demo ==> r == Scanned(false, DemoExpected(), stored)
    ensures !demo && (odaData.None? || oddData.None?) ==> r == FetchFailed
    ensures !demo && odaData.Some? && oddData.Some? ==>
      && r.Scanned?
      && (r.isFirstScan <==> |stored.oda| == 0)
      && r.stored == Snapshots(odaData.value, oddData.value, Some(now))
      && (r.isFirstScan ==> r.matches == [])
    ensures !demo && odaData.Some? && oddData.Some? && |stored.oda| != 0 ==>
      var center := PlayerCenter(ownCoords, parseInt);
      var oda := InRangeOf(DeltasOf(odaData.value, stored.oda), villageData, center, radius);
      var odd := InRangeOf(DeltasOf(oddData.value, stored.odd), villageData, center, radius);
      && r.Scanned?
      && (forall m :: m in r.matches <==> IsAccepted(oda, odd, players, DefaultTolerance, m))
      && DistinctPairs(r.matches)
      && Sorting.SortedBy(r.matches, PercentDiff)
  {
    if demo {
      var matches := FindMatches(DemoOda, DemoOdd, DemoPlayers, DefaultTolerance);
      DemoOrderIsFixed(matches);
      return Scanned(false, matches, stored);
    }
    if odaData.None? || oddData.None? {
      return FetchFailed;
    }
    var isFirstScan := |stored.oda| == 0;
    var center := PlayerCenter(ownCoords, parseInt);
    var oda := LocalDeltas(odaData.value, stored.oda, villageData, center, radius);
    var odd := LocalDeltas(oddData.value, stored.odd, villageData, center, radius);
    var matches := [];
    if !isFirstScan {
      matches := FindMatches(oda, odd, players, DefaultTolerance);
    }
    return Scanned(isFirstScan, matches, Snapshots(odaData.value, oddData.value, Some(now)));
  }

  /** The deltas of one series, then the range filter, as the scan runs them. */
  method LocalDeltas(current: map<string, int>, previous: map<string, int>,
                     villageData: map<string, seq<Coord>>, center: Coord, radius: int)
    returns (local: map<string, int>)
    ensures local == InRangeOf(DeltasOf(current, previous), villageData, center, radius)
  {
    var deltas := CalculateDeltas(current, previous);
    local := FilterInRange(deltas, villageData, center, radius);
  }

  /**
   * Every pair a scan reports links two different players whose counters
   * both grew since the stored snapshot, both with a village in range.
   */
  lemma ScanMatchesAreLocalGains(current: map<string, int>, previous: map<string, int>,
                                 currentDef: map<string, int>, previousDef: map<string, int>,
                                 villageData: map<string, seq<Coord>>, center: Coord, radius: int,
                                 players: map<string, string>, m: Match)
    requires IsAccepted(InRangeOf(DeltasOf(current, previous), villageData, center, radius),
                        InRangeOf(DeltasOf(currentDef, previousDef), villageData, center, radius),
                        players, DefaultTolerance, m)
    ensures m.attackerId != m.defenderId
    ensures m.attackerId in current && m.odaGain == current[m.attackerId] - GetOrZero(previous, m.attackerId) > 0
    ensures m.defenderId in currentDef && m.oddGain == currentDef[m.defenderId] - GetOrZero(previousDef, m.defenderId) > 0
    ensures IsInRange(VillagesOf(villageData, m.attackerId), center, radius)
    ensures IsInRange(VillagesOf(villageData, m.defenderId), center, radius)
    ensures 8 * Abs(m.odaGain - m.oddGain) <= m.odaGain + m.oddGain
  {
    DefaultToleranceInIntegers(m.odaGain, m.oddGain);
  }
}

=== FILE: world.dfy ===
/** Positions on the game's square map, shared by both scripts. */
module World {
  /** A map position: column `x`, row `y`. */
  datatype Coord = Coord(x: int, y: int)
}
